=== FILE: README.md ===
# Banking end-to-end suite: test data, login fixture and in-page checks

This project is a Dafny model of the logic inside a Playwright end-to-end
suite for an online-banking web application. The logic it models is:

- **Test users** (`test-data/users.ts`): loading the local user file, turning
  its record into a list of `TestUser`s, looking a user up by id, choosing the
  default user, and returning a user's accounts.
- **Login fixture** (`test-data/fixtures.ts`): choosing the test user from the
  `userId` option, and running the `loginAs` ceremony against a page. The
  ceremony is: username, password, SMS as the MFA device, SMS code, then a wait
  for the home URL.
- **Advanced accessibility checks** (`e2e/accessibility-advanced.spec.ts`):
  - the Tab-press loops, and what they keep of the focused elements;
  - the focus-trap counter;
  - heading levels and level skips;
  - landmark detection;
  - form-label counting;
  - the positive-`tabindex` filter.
- **axe report** (`e2e/accessability.spec.ts`): the histogram of violations by
  impact, and the per-violation report lines.
- **Data masking and session protection** (`e2e/data-masking-security.spec.ts`):
  - the session-token URL pattern;
  - the sensitive-parameter check;
  - the long-digit-run attribute scan;
  - the browser-storage scan;
  - the session-cookie predicate;
  - the CVV input check.

The model replaces the browser with parameters:

- The value a page query returns after each Tab press is a function from the
  press number to `Option<string>` (`None` is `null`).
- The DOM facts a query reads are plain values: the tags present, the role
  attributes, form fields, attributes, storage entries and cookies.
- The page a login runs on is a `Page` object. It records the actions
  performed, and it has a fixed set of actions that never complete. Playwright
  turns a wait that never completes into a thrown timeout.
- The base URL from the environment and the parsed user file are optional
  inputs.

JavaScript details the model keeps:

- `""` and `null` are both false in a condition.
- `??` replaces only a missing value.
- A case-insensitive regular expression without the `u` flag matches the
  ASCII letters of these patterns only against ASCII letters. `Text.Lower`,
  which also stands for `toLowerCase`, maps only ASCII letters; see
  "Left out" for what that misses.
- `\d` is the ASCII digits.
- `Number()` is modelled for signed decimal integers.

Modules:

- `Wrappers`: `Option`, `Result`.
- `Text`: lower-casing, `includes`, `join`, digits.
- `Users`
- `Fixtures`
- `A11yAdvanced`
- `AxeReport`
- `DataMasking`

About the login as the code has it:

- The test user is chosen only by the `userId` option.
- Credentials are entered with `fill`.
- A login ends by waiting for a URL containing `/home`.

## Model

| member | source | states |
|---|---|---|
| Users.LoadTestData | test-data/users.ts:41-52 | An absent file gives a `MissingFile` error whose message names users.local.json. An unparsable file gives an error. Otherwise the result is the parsed record. |
| Users.LoadUsers | test-data/users.ts:54-66 | Loading fails exactly when the file is absent or unparsable, and an absent file gives the missing-file message. Otherwise there is one user per record entry, in entry order, with the entry's key as id (corrected construction, see Findings). |
| Users.LoadUsersAgreesWithSource | test-data/users.ts:54-66 | When no entry's data carries its own `id`, loading gives exactly the users the source's `{ id, ...user }` builds. |
| Users.MakeUser | test-data/users.ts:62-65 | The intended user built from one entry: its id is the key, and name, username, password, SMS code and accounts are copied unchanged. |
| Users.TestUsers | test-data/users.ts:61-66 | One user per entry, in entry order, each built from the entry's key and data (corrected spread order, see Findings). |
| Users.TestUsersAsWritten | test-data/users.ts:61-66 | One user per entry, in entry order, built with the spread as written: a stray `id` field in the data overrides the key. |
| Users.Ids | test-data/users.ts:79 | The list of ids has one element per user, equal to that user's id, in list order. |
| Users.FindIndex | test-data/users.ts:75 | `find`: the index found holds the id and no earlier user has it. `None` means no user has the id. |
| Users.GetUser | test-data/users.ts:74-84 | Succeeds exactly when some user has the id. The user returned has that id and is the first with it. On failure the error is the not-found message. |
| Users.NotFoundMessageNamesIds | test-data/users.ts:77-81 | The not-found message contains the requested id and every available id. |
| Users.GetUserOfMember | test-data/users.ts:74-84 | With pairwise distinct ids, looking up any listed user's id returns exactly that user. |
| Users.LoadedIdsDistinct | test-data/users.ts:61-66 | Users built from a record with distinct keys have pairwise distinct ids. |
| Users.LookupByKey | test-data/users.ts:61-84 | Looking up a record key returns the user built from that entry. |
| Users.DefaultUser | test-data/users.ts:91-93 | The default user is the first user of the list. |
| Users.DefaultIsFirstKey | test-data/users.ts:91-93 | The default user is built from the first record entry. A record whose first key differs has a different default. |
| Users.GetAccounts | test-data/users.ts:95-99 | Succeeds exactly when `GetUser` does, with the accounts of the first user with that id. Otherwise it fails with the same message. |
| Users.SpreadOverridesKey | test-data/users.ts:61-66 | As written, entries "a" and "b" whose data carries `id: "b"` produce two users with id "b", and looking up "a" fails. |
| Users.SpreadAgreesWithoutStrayId | test-data/users.ts:61-66 | When no entry's data has its own `id`, the spread as written and the corrected construction give the same users. |
| Fixtures.SelectTestUser | test-data/fixtures.ts:36-42 | An empty `userId` (the option's default) selects the first user. A non-empty one gives exactly `getUser`'s result: the first user with that id, or, exactly when it is absent, the not-found message naming it and every available id. |
| Fixtures.DefaultOptionSelectsFirstUser | test-data/fixtures.ts:36-42 | With the default option and a loaded record, the test user is the one built from the first entry. |
| Fixtures.CeremonyFlat | test-data/fixtures.ts:53-93 | The login ceremony is the fourteen awaited actions in source order, from the navigation to the URL wait. |
| Fixtures.CeremonyOrder | test-data/fixtures.ts:53-93 | The ceremony starts by navigating to the login URL and ends waiting for `/home`. Every fill and the option selection are preceded by a wait on the same element. |
| Fixtures.CeremonyNavigatesOnce | test-data/fixtures.ts:53-55 | The only navigation is to base URL + `/#/administrationGeneral/login`. |
| Fixtures.CeremonyFillsSecretsInOrder | test-data/fixtures.ts:59-87 | The fills receive exactly username, password and SMS code, in that order. |
| Fixtures.CeremonyAlwaysPicksSms | test-data/fixtures.ts:74-75 | The only option selected is "SMS Code". |
| Fixtures.Attempt | test-data/fixtures.ts:55-93 | Awaiting the actions in turn attempts a prefix of the script. The attempt completes exactly when no scripted action times out. Otherwise it stops at the first action that times out. |
| Fixtures.LoginRun | test-data/fixtures.ts:45-97 | A missing or empty base URL fails with the BASE_URL message before any action. Otherwise the first action is the navigation to the login URL, and the login completes exactly when no action of the ceremony times out, having performed the whole ceremony. A timeout stops the login at that action: the actions attempted are the ceremony up to and including the first one that timed out, and that action is the reported failure. |
| Fixtures.Page.Perform | test-data/fixtures.ts:55-93 | Performing an action appends it to the page's trace and reports whether it completed. |
| Fixtures.AttemptStopsWithin | test-data/fixtures.ts:55-93 | When an action of a first part of the script times out, nothing after that part is tried. |
| Fixtures.AttemptContinuesAfter | test-data/fixtures.ts:55-93 | When a first part of the script completes, the rest is attempted after it, and the rest decides the outcome. |
| Fixtures.OpenLoginPage | test-data/fixtures.ts:55-56 | Goes to the login URL and waits for `#step01`, stopping at the first of the two that times out. |
| Fixtures.EnterUsername | test-data/fixtures.ts:59-63 | Fills `#step01` with the username and clicks the user step's Next link, stopping at the first timeout. |
| Fixtures.EnterPassword | test-data/fixtures.ts:66-71 | Waits for `#step02`, fills it with the password and clicks the password step's Next link, stopping at the first timeout. |
| Fixtures.ChooseSmsDevice | test-data/fixtures.ts:74-79 | Waits for the device list, selects "SMS Code" and clicks the device step's Next link, stopping at the first timeout. |
| Fixtures.EnterSmsCode | test-data/fixtures.ts:82-91 | Waits for the SMS code box, fills it with the SMS code and clicks Confirm, stopping at the first timeout. |
| Fixtures.AwaitHome | test-data/fixtures.ts:93 | Waits for a URL matching `/home`; a timeout there fails the login. |
| Fixtures.LoginAs | test-data/fixtures.ts:45-97 | The page's trace grows by exactly the actions `LoginRun` attempts, and the outcome is `LoginRun`'s outcome. |
| Fixtures.Login | test-data/fixtures.ts:39-106 | `login()` first resolves `testUser` from the `userId` option. When that fails, the error is returned and the page is untouched. Otherwise the trace and outcome are exactly those of `loginAs` for the selected user (lines 100-106). |
| Fixtures.LoginOnResponsivePage | test-data/fixtures.ts:45-97 | On a page where nothing times out, a login with a base URL completes, filling username, password and SMS code in order and choosing SMS. Without a base URL it performs no action. |
| A11yAdvanced.Observed | e2e/accessibility-advanced.spec.ts:144-150 | One observation per Tab press: the value the page reports after that press. |
| A11yAdvanced.FirstReport | e2e/accessibility-advanced.spec.ts:144-155 | The press after which a stop was first reported: it reports the stop and no earlier press does. |
| A11yAdvanced.DistinctStops | e2e/accessibility-advanced.spec.ts:152-154 | The kept stops have no duplicates and are at most as many as the presses. A stop is kept exactly when some press reported it with a non-empty value. |
| A11yAdvanced.DistinctStopsFirstReachedOrder | e2e/accessibility-advanced.spec.ts:143-155 | The kept stops are in the order in which they were first reached. |
| A11yAdvanced.CollectDistinctStops | e2e/accessibility-advanced.spec.ts:143-155 | The de-duplicating Tab loop computes `DistinctStops` of the observations. |
| A11yAdvanced.LoginTabReach | e2e/accessibility-advanced.spec.ts:143-155 | The login loop makes `totalInteractive + 5` presses. It reaches at most that many stops, none twice: exactly those reported with a non-empty value. |
| A11yAdvanced.SidebarReach | e2e/accessibility-advanced.spec.ts:176-194 | The sidebar loop makes 30 presses and keeps at most 30 distinct, non-empty item texts. |
| A11yAdvanced.AllStops | e2e/accessibility-advanced.spec.ts:212-235 | The non-de-duplicating loops keep one stop per press that reported a non-empty value, repeats included, so at most one per press; the stops are exactly the non-empty values reported. |
| A11yAdvanced.DistinctStopsOfAllStops | e2e/accessibility-advanced.spec.ts:143-235 | The de-duplicated stops are no more than all stops and have exactly the same members. |
| A11yAdvanced.CollectStops | e2e/accessibility-advanced.spec.ts:212-235 | The Tab loop that keeps every non-empty value computes `AllStops`. |
| A11yAdvanced.TransferTabSequence | e2e/accessibility-advanced.spec.ts:212-235 | The transfer-form loop makes 20 presses and keeps at most 20 stops. |
| A11yAdvanced.TabOrderAgainstVisual | e2e/accessibility-advanced.spec.ts:778-811 | The tab-order test makes three presses more than there are visible elements, keeps at most that many stops, and flags exactly the positive-tabindex elements. |
| A11yAdvanced.EscapeCount | e2e/accessibility-advanced.spec.ts:296-308 | The count of presses that left focus outside the dialog is at most the presses. It is 0 exactly when focus always stayed inside, and equal to the presses exactly when it never did. |
| A11yAdvanced.CountEscapes | e2e/accessibility-advanced.spec.ts:296-310 | The focus-trap loop counts `EscapeCount` over its ten presses, so between 0 and 10. |
| A11yAdvanced.HasH1 | e2e/accessibility-advanced.spec.ts:446 | True exactly when some heading has level 1. |
| A11yAdvanced.SkipCount | e2e/accessibility-advanced.spec.ts:486-491 | Fewer than two headings give no skips; otherwise there are at most n - 1 skips. There are none exactly when no heading is more than one level below its predecessor. |
| A11yAdvanced.NoSkipsBoundsDepth | e2e/accessibility-advanced.spec.ts:486-491 | Without skips, the heading at position i is at most i levels below the first. |
| A11yAdvanced.CountSkips | e2e/accessibility-advanced.spec.ts:486-491 | The skip-counting loop computes `SkipCount`. |
| A11yAdvanced.RolePassKeepsFound | e2e/accessibility-advanced.spec.ts:342-349 | The role pass keeps the tag results as a prefix and adds exactly the listed landmark roles declared on elements. It adds no duplicates. |
| A11yAdvanced.LandmarksFound | e2e/accessibility-advanced.spec.ts:328-350 | The results hold only main, navigation and banner, none twice. Each is present exactly when its tag (`main`, `nav`, `header`) exists or some element declares the role. Tag-found roles come first. |
| A11yAdvanced.CollectLandmarks | e2e/accessibility-advanced.spec.ts:328-350 | The two loops inside the page compute `Landmarks`. |
| A11yAdvanced.UnlabeledCount | e2e/accessibility-advanced.spec.ts:552-576 | The unlabeled count is at most the number of fields. It is 0 exactly when every field has a label for its non-empty id or a non-empty ARIA label, and equal to the number of fields exactly when none does. |
| A11yAdvanced.CountUnlabeled | e2e/accessibility-advanced.spec.ts:572-582 | The counting loop computes `UnlabeledCount`. |
| A11yAdvanced.DecimalPositive | e2e/accessibility-advanced.spec.ts:810 | A digit string denotes a positive number exactly when some digit is not '0'. |
| A11yAdvanced.DigitsTabindexPositive | e2e/accessibility-advanced.spec.ts:809-811 | An unsigned-digit tabindex is flagged exactly when it has a non-zero digit. |
| A11yAdvanced.BadTabindex | e2e/accessibility-advanced.spec.ts:809-811 | The filter keeps exactly the elements with a truthy tabindex whose `Number` value is positive. |
| A11yAdvanced.BadTabindexConcat | e2e/accessibility-advanced.spec.ts:809-811 | The filter keeps page order: filtering a concatenation filters each part. |
| AxeReport.ImpactKey | e2e/accessability.spec.ts:19 | A missing impact becomes "unknown"; any present impact, even empty, is kept. |
| AxeReport.ImpactCounts | e2e/accessability.spec.ts:17-24 | The reduce loop over an initially empty record computes `Histogram` of the violations. |
| AxeReport.HistogramCounts | e2e/accessability.spec.ts:17-24 | A key is present exactly when some violation has that impact key. Its count is the number of such violations, so at least 1, and absent keys count none. |
| AxeReport.HistogramTotal | e2e/accessability.spec.ts:17-24 | The counts sum to the number of violations. |
| AxeReport.Flatten | e2e/accessability.spec.ts:30-31 | Every selector of every node is among the flattened targets. |
| AxeReport.FlattenConcat | e2e/accessability.spec.ts:30-31 | Flattening keeps node order: it distributes over concatenation. |
| AxeReport.TargetsNameEveryNode | e2e/accessability.spec.ts:30-32 | The targets string contains every selector of every node. |
| AxeReport.TargetsOfAddedNode | e2e/accessability.spec.ts:30-32 | One more single-selector node appends " \| " and its selector to the targets string. |
| AxeReport.DetailLines | e2e/accessability.spec.ts:34-36 | Three lines per violation. The first is `- [impact] id: help`, with the same impact key as the histogram. |
| AxeReport.UnknownImpactLine | e2e/accessability.spec.ts:34 | A violation without impact is listed under "[unknown]". |
| AxeReport.ReportedImpactIsCounted | e2e/accessability.spec.ts:17-36 | The impact a violation's line shows is a histogram key. A missing impact shows as "unknown" in both. |
| DataMasking.SessionWordAtIff | e2e/data-masking-security.spec.ts:3 | Trying the five words in turn is the pattern's alternation `(token\|session\|sid\|auth\|jwt)=`. |
| DataMasking.SessionTokenFrom | e2e/data-masking-security.spec.ts:3 | The left-to-right search finds a match exactly when one starts at or after the start index. |
| DataMasking.SessionTokenInUrl | e2e/data-masking-security.spec.ts:3 | The pattern matches exactly when the URL has '?' or '&' followed, ignoring ASCII case, by token, session, sid, auth or jwt and '='. |
| DataMasking.SessionTokenIgnoresCase | e2e/data-masking-security.spec.ts:3 | A URL and its lower-cased form match alike. |
| DataMasking.FirstContained | e2e/data-masking-security.spec.ts:147-152 | The first listed parameter that the lowered URL contains, where all earlier ones are absent. `None` exactly when none is contained. |
| DataMasking.SensitiveParamInUrl | e2e/data-masking-security.spec.ts:146-152 | The URL check passes exactly when the lower-cased URL contains none of password, pwd, secret, key, apikey. Otherwise it reports the first listed parameter that the URL contains, where the loop of expectations stops. |
| DataMasking.ApiKeyNeverReported | e2e/data-masking-security.spec.ts:146 | "apikey" is never the one reported: "key" is checked first and every URL containing "apikey" contains it. |
| DataMasking.LongDigitRun | e2e/data-masking-security.spec.ts:26 | The unanchored `\d{10,16}` matches exactly when the value has a run of at least ten digits. |
| DataMasking.ElementFindings | e2e/data-masking-security.spec.ts:24-29 | At most one finding per attribute. None exactly when no attribute value has a long digit run. |
| DataMasking.AttributeFindings | e2e/data-masking-security.spec.ts:23-30 | No findings exactly when no attribute of any element has a long digit run. |
| DataMasking.ScanAttributes | e2e/data-masking-security.spec.ts:18-33 | The nested loops compute `AttributeFindings`. |
| DataMasking.KeyFindings | e2e/data-masking-security.spec.ts:241-246 | Exactly one finding per critical word that the lowered key contains, each `area: key`. None exactly when it contains no critical word. |
| DataMasking.EntryFindingCount | e2e/data-masking-security.spec.ts:240-254 | An entry with a key gives one finding per critical word in its key plus one for a sensitive value. It gives none exactly when it is not flagged. |
| DataMasking.StorageFindingsEmpty | e2e/data-masking-security.spec.ts:238-255 | A storage area gives no findings exactly when none of its entries is flagged (an empty key is never flagged). |
| DataMasking.CriticalWordFindings | e2e/data-masking-security.spec.ts:241-246 | The loop over the critical words computes `KeyFindings` for the key. |
| DataMasking.ScanStorage | e2e/data-masking-security.spec.ts:238-255 | One area's nested loops compute `StorageFindings`. |
| DataMasking.ScanBrowserStorage | e2e/data-masking-security.spec.ts:228-282 | The findings are local storage's then session storage's, from the same scan. The check passes exactly when no entry in either area is flagged. |
| DataMasking.HasSessionCookie | e2e/data-masking-security.spec.ts:212-214 | True exactly when some cookie's lower-cased name contains "session" or the cookie is httpOnly. |
| DataMasking.FirstFilledCvv | e2e/data-masking-security.spec.ts:98-105 | The loop fails at the first input whose value read is a non-empty string. Every input passes exactly when each read failed or gave "". |

## Left out

- Browser driving: navigation, locators, clicks, waits, keyboard presses, `page.evaluate`, and the DOM queries whose answers are inputs here. Screenshots and console logging are left out too.
- Wall-clock time: waits and timeouts are modelled only as "this action never completes".
- axe-core's scan. Only the post-processing of its result is modelled. A target is modelled as a list of selector strings; nested shadow-DOM selectors are not.
- AxeReport.Histogram: treats every impact string as an ordinary key. The source accumulates into a plain `{}`, whose inherited members (`constructor`, `toString`) would make `acc[key] ?? 0` read a function for such an impact; axe only reports minor, moderate, serious, critical or no impact, so none of those names arises.
- Reading users.local.json and `process.env.BASE_URL`: the parsed record and the base URL are parameters. The shape of the JSON is not validated, by the model or by the code.
- `Object.entries` order: entries are given in the record's order. The rule that integer-like keys come first in ascending order is not modelled.
- Users.DefaultUser: requires a non-empty user list; Fixtures.SelectTestUser and Fixtures.Login inherit it as `userId != "" || |users| > 0`. The code indexes `testUsers[0]` without a guard, and an empty record yields `undefined` rather than an error.
- Text.Lower: maps only ASCII letters, while `toLowerCase` also maps other characters, some onto ASCII letters (the Kelvin sign becomes "k"). So DataMasking.SensitiveParamInUrl, DataMasking.KeyFindings (and the storage scan built on it) and DataMasking.HasSessionCookie can miss a word that the source finds only after such a mapping. The regular-expression checks are not affected.
- Users.LoadUsers: builds users with the corrected construction. For an entry whose data carries its own `id`, the source gives that `id` instead of the key (see Findings); `Users.LoadUsersAgreesWithSource` covers all other data.
- A11yAdvanced.JsNumber: covers the empty string and optionally signed decimal integers. Other strings `Number` accepts (whitespace, fractions, exponents, hex, `Infinity`) are treated as NaN.
- The visual-order sort, bounding-box filter and `y` rounding of the tab-order test.
- The dashboard heading test only logs its skips (lines 453-459). The condition is the one `SkipCount` counts.
- The skip-link, page-title, contrast, zoom, accessible-name and live-region tests.
- The per-WCAG-level axe scans of the advanced suite.
- The ids passed to `label[for="..."]`: one containing a quote would make the selector throw, which is not modelled.
- Other regular-expression checks of the data-masking suite: the card-number pattern (line 71), the console-log patterns (lines 175-179) and the CVV-exposure pattern (lines 110-113).
- The session-protection test's navigation steps. Only its URL, parameter and cookie predicates are modelled.
- Worker-parallel execution: the suite runs one worker.

## Findings

| source | as written | input that shows it | evidently intended | confidence | as-written member | corrected member |
|---|---|---|---|---|---|---|
| test-data/users.ts:61-66 | `{ id, ...user }` spreads the entry's data after the key, so an `id` field in the data replaces the key | record `{ "a": {id: "b", ...}, "b": {id: "b", ...} }`: two users with id "b", and `getUser("a")` throws | every user's id is its record key, so every key can be looked up | not executed | Users.SpreadOverridesKey | Users.LookupByKey |

=== FILE: a11y_advanced.dfy ===
/**
 * The in-process computations of the advanced accessibility suite: what it
 * does with the values it reads back from the page after each Tab press,
 * with the headings, landmarks and form fields it finds, and with the
 * tabindex values of the interactive elements.
 */
module A11yAdvanced {
  import opened Wrappers
  import opened Text

  /** A value read back from the page: `null` or a string. JavaScript treats `null` and "" as false. */
  predicate Truthy(v: Option<string>)
  {
    v.Some? && v.value != ""
  }

  // ---------------------------------------------------------------------
  // Tab stops
  // ---------------------------------------------------------------------

  /** Extra Tab presses beyond the number of interactive elements on the login page. */
  const LoginExtraPresses: nat := 5
  /** Tab presses made on the dashboard sidebar. */
  const SidebarPresses: nat := 30
  /** Tab presses made on the transfer form. */
  const TransferPresses: nat := 20
  /** Extra Tab presses beyond the visually ordered elements in the tab-order test. */
  const TabOrderExtraPresses: nat := 3

  /** What the page reported after each of the first `presses` Tab presses. */
  function Observed(presses: nat, focusAfter: nat -> Option<string>): (obs: seq<Option<string>>)
    ensures |obs| == presses
    ensures forall i :: 0 <= i < presses ==> obs[i] == focusAfter(i)
  {
    seq(presses, i requires 0 <= i < presses => focusAfter(i))
  }

  /** Observation `o` reports the stop `x`. */
  predicate Reports(o: Option<string>, x: string)
  {
    Truthy(o) && o.value == x
  }

  predicate Occurs(obs: seq<Option<string>>, x: string)
  {
    exists i :: 0 <= i < |obs| && Reports(obs[i], x)
  }

  /** The press after which `x` was first reported. */
  function FirstReport(obs: seq<Option<string>>, x: string): (k: nat)
    requires Occurs(obs, x)
    ensures k < |obs| && Reports(obs[k], x)
    ensures forall j :: 0 <= j < k ==> !Reports(obs[j], x)
  {
    var n := |obs| - 1;
    if Occurs(obs[..n], x) then
      var k := FirstReport(obs[..n], x);
      assert obs[..n][k] == obs[k];
      k
    else
      assert forall j :: 0 <= j < n ==> obs[..n][j] == obs[j];
      n
  }

  /** The stops reported, each once, in the order first reached: what the de-duplicating loops keep. */
  function DistinctStops(obs: seq<Option<string>>): (r: seq<string>)
    ensures |r| <= |obs|
    ensures forall i, j :: 0 <= i < j < |r| ==> r[i] != r[j]
    ensures forall x :: x in r <==> Occurs(obs, x)
  {
    if obs == [] then []
    else
      var n := |obs| - 1;
      var prior := DistinctStops(obs[..n]);
      assert forall j :: 0 <= j < n ==> obs[..n][j] == obs[j];
      assert forall x :: Occurs(obs, x) <==> Occurs(obs[..n], x) || Reports(obs[n], x);
      if Truthy(obs[n]) && obs[n].value !in prior then prior + [obs[n].value] else prior
  }

  /** The stops come in the order in which they were first reached. */
  lemma {:induction false} DistinctStopsFirstReachedOrder(obs: seq<Option<string>>)
    ensures forall i, j :: 0 <= i < j < |DistinctStops(obs)| ==>
      FirstReport(obs, DistinctStops(obs)[i]) < FirstReport(obs, DistinctStops(obs)[j])
  {
    if obs != [] {
      var n := |obs| - 1;
      DistinctStopsFirstReachedOrder(obs[..n]);
      var prior := DistinctStops(obs[..n]);
      var r := DistinctStops(obs);
      forall x | x in prior
        ensures FirstReport(obs, x) == FirstReport(obs[..n], x)
      {
        assert Occurs(obs[..n], x);
      }
      forall i, j | 0 <= i < j < |r|
        ensures FirstReport(obs, r[i]) < FirstReport(obs, r[j])
      {
        assert r[i] in prior;
        if j < |prior| {
          assert r[j] in prior;
        } else {
          assert r[j] == obs[n].value && !Occurs(obs[..n], r[j]);
        }
      }
    }
  }

  /**
   * The login and sidebar Tab loops: press Tab `presses` times and keep each
   * reported stop the first time it is reported.
   */
  method CollectDistinctStops(presses: nat, focusAfter: nat -> Option<string>) returns (reached: seq<string>)
    ensures reached == DistinctStops(Observed(presses, focusAfter))
  {
    ghost var obs := Observed(presses, focusAfter);
    reached := [];
    var i := 0;
    while i < presses
      invariant 0 <= i <= presses
      invariant reached == DistinctStops(obs[..i])
    {
      var tag := focusAfter(i);
      assert obs[..i + 1][..i] == obs[..i];
      if tag.Some? && tag.value != "" && tag.value !in reached {
        reached := reached + [tag.value];
      }
      i := i + 1;
    }
    assert obs[..presses] == obs;
  }

  /** The login-page loop makes `totalInteractive + 5` presses, so it reaches at most that many stops. */
  method LoginTabReach(totalInteractive: nat, focusAfter: nat -> Option<string>)
    returns (reached: seq<string>, presses: nat)
    ensures presses == totalInteractive + LoginExtraPresses
    ensures |reached| <= presses
    ensures forall i, j :: 0 <= i < j < |reached| ==> reached[i] != reached[j]
    ensures forall x :: x in reached <==> exists i :: 0 <= i < presses && Reports(focusAfter(i), x)
  {
    presses := totalInteractive + LoginExtraPresses;
    reached := CollectDistinctStops(presses, focusAfter);
    ghost var obs := Observed(presses, focusAfter);
    assert forall x :: Occurs(obs, x) <==> exists i :: 0 <= i < presses && Reports(focusAfter(i), x);
  }

  /** The dashboard sidebar loop: thirty presses, keeping each focused item's text once. */
  method SidebarReach(focusAfter: nat -> Option<string>) returns (reached: seq<string>)
    ensures reached == DistinctStops(Observed(SidebarPresses, focusAfter))
    ensures |reached| <= SidebarPresses
  {
    reached := CollectDistinctStops(SidebarPresses, focusAfter);
  }

  /** Every reported stop, repeats included: what the transfer-form and tab-order loops keep. */
  function AllStops(obs: seq<Option<string>>): (r: seq<string>)
    ensures |r| <= |obs|
    ensures |r| == |set i | 0 <= i < |obs| && Truthy(obs[i])|
    ensures forall x :: x in r <==> Occurs(obs, x)
  {
    if obs == [] then []
    else
      var n := |obs| - 1;
      var prior := AllStops(obs[..n]);
      assert forall j :: 0 <= j < n ==> obs[..n][j] == obs[j];
      assert forall x :: Occurs(obs, x) <==> Occurs(obs[..n], x) || Reports(obs[n], x);
      var before := set i | 0 <= i < n && Truthy(obs[..n][i]);
      var all := set i | 0 <= i < |obs| && Truthy(obs[i]);
      assert all == before + (if Truthy(obs[n]) then {n} else {});
      assert n !in before;
      if Truthy(obs[n]) then prior + [obs[n].value] else prior
  }

  /** Keeping only first reports of the full tab sequence gives the de-duplicated stops. */
  lemma {:induction false} DistinctStopsOfAllStops(obs: seq<Option<string>>)
    ensures |DistinctStops(obs)| <= |AllStops(obs)|
    ensures forall x :: x in DistinctStops(obs) <==> x in AllStops(obs)
  {
    if obs != [] {
      DistinctStopsOfAllStops(obs[..|obs| - 1]);
    }
  }

  /** The transfer-form and tab-order loops: press Tab `presses` times, keep every reported stop. */
  method CollectStops(presses: nat, focusAfter: nat -> Option<string>) returns (tabbed: seq<string>)
    ensures tabbed == AllStops(Observed(presses, focusAfter))
  {
    ghost var obs := Observed(presses, focusAfter);
    tabbed := [];
    var i := 0;
    while i < presses
      invariant 0 <= i <= presses
      invariant tabbed == AllStops(obs[..i])
    {
      var desc := focusAfter(i);
      assert obs[..i + 1][..i] == obs[..i];
      if desc.Some? && desc.value != "" {
        tabbed := tabbed + [desc.value];
      }
      i := i + 1;
    }
    assert obs[..presses] == obs;
  }

  /** The transfer-form loop: twenty presses, keeping every non-empty description. */
  method TransferTabSequence(focusAfter: nat -> Option<string>) returns (tabbed: seq<string>)
    ensures tabbed == AllStops(Observed(TransferPresses, focusAfter))
    ensures |tabbed| <= TransferPresses
  {
    tabbed := CollectStops(TransferPresses, focusAfter);
  }

  // ---------------------------------------------------------------------
  // Focus trap
  // ---------------------------------------------------------------------

  /** Tab presses made inside the logout dialog. */
  const DialogPresses: nat := 10

  /** How many of the first `n` presses left focus outside the dialog. */
  function EscapeCount(n: nat, stillInDialog: nat -> bool): (c: nat)
    ensures c <= n
    ensures c == 0 <==> forall i :: 0 <= i < n ==> stillInDialog(i)
    ensures c == n <==> forall i :: 0 <= i < n ==> !stillInDialog(i)
  {
    if n == 0 then 0
    else EscapeCount(n - 1, stillInDialog) + (if stillInDialog(n - 1) then 0 else 1)
  }

  /** The focus-trap loop: ten presses, counting those after which focus is outside the dialog. */
  method CountEscapes(stillInDialog: nat -> bool) returns (escaped: nat)
    ensures escaped == EscapeCount(DialogPresses, stillInDialog)
    ensures 0 <= escaped <= DialogPresses
  {
    escaped := 0;
    var i := 0;
    while i < DialogPresses
      invariant 0 <= i <= DialogPresses
      invariant escaped == EscapeCount(i, stillInDialog)
    {
      var still := stillInDialog(i);
      if !still {
        escaped := escaped + 1;
      }
      i := i + 1;
    }
  }

  // ---------------------------------------------------------------------
  // Headings
  // ---------------------------------------------------------------------

  /** `headings.some(h => h.level === 1)`. */
  function HasH1(levels: seq<int>): (b: bool)
    ensures b <==> exists i :: 0 <= i < |levels| && levels[i] == 1
  {
    if levels == [] then false
    else levels[0] == 1 || HasH1(levels[1..])
  }

  /** A level skip at position `i`: the heading is more than one level below the previous one. */
  predicate SkipAt(levels: seq<int>, i: int)
    requires 1 <= i < |levels|
  {
    levels[i] > levels[i - 1] + 1
  }

  /** The number of positions with a level skip. */
  function SkipCount(levels: seq<int>): (c: nat)
    ensures |levels| < 2 ==> c == 0
    ensures |levels| >= 2 ==> c <= |levels| - 1
    ensures c == 0 <==> forall i :: 1 <= i < |levels| ==> !SkipAt(levels, i)
  {
    if |levels| < 2 then 0
    else
      var n := |levels| - 1;
      var prior := SkipCount(levels[..n]);
      assert forall i :: 1 <= i < n ==> (SkipAt(levels[..n], i) <==> SkipAt(levels, i));
      prior + (if SkipAt(levels, n) then 1 else 0)
  }

  /** Without skips, each heading is at most `i` levels below the first. */
  lemma {:induction false} NoSkipsBoundsDepth(levels: seq<int>, i: int)
    requires 0 <= i < |levels|
    requires SkipCount(levels) == 0
    ensures levels[i] <= levels[0] + i
  {
    if i > 0 {
      assert !SkipAt(levels, i);
      NoSkipsBoundsDepth(levels, i - 1);
    }
  }

  /** The skip-counting loop of the all-sections heading test. */
  method CountSkips(levels: seq<int>) returns (skips: nat)
    ensures skips == SkipCount(levels)
  {
    skips := 0;
    var i := 1;
    while i < |levels|
      invariant 1 <= i <= |levels| || (|levels| == 0 && i == 1)
      invariant skips == SkipCount(levels[..if i <= |levels| then i else |levels|])
    {
      assert levels[..i + 1][..i] == levels[..i];
      if levels[i] > levels[i - 1] + 1 {
        skips := skips + 1;
      }
      i := i + 1;
    }
    assert levels[..|levels|] == levels;
  }

  // ---------------------------------------------------------------------
  // Landmarks
  // ---------------------------------------------------------------------

  /** The element tags looked up, with the landmark role each one stands for. */
  const LandmarkTags: seq<(string, string)> := [("main", "main"), ("nav", "navigation"), ("header", "banner")]

  /** The landmark roles the test requires. */
  const LandmarkRoles: seq<string> := ["main", "navigation", "banner"]

  /** The roles found through the tags present in the document, in the order of `LandmarkTags`. */
  function TagPass(tags: seq<(string, string)>, present: set<string>): seq<string>
  {
    if tags == [] then []
    else
      var n := |tags| - 1;
      TagPass(tags[..n], present) + (if tags[n].0 in present then [tags[n].1] else [])
  }

  /** The roles added from explicit `role` attributes, each landmark role at most once. */
  function RolePass(found: seq<string>, roles: seq<string>): seq<string>
  {
    if roles == [] then found
    else
      var n := |roles| - 1;
      var prior := RolePass(found, roles[..n]);
      if roles[n] in LandmarkRoles && roles[n] !in prior then prior + [roles[n]] else prior
  }

  function Landmarks(present: set<string>, roles: seq<string>): seq<string>
  {
    RolePass(TagPass(LandmarkTags, present), roles)
  }

  lemma {:induction false} RolePassKeepsFound(found: seq<string>, roles: seq<string>)
    ensures |RolePass(found, roles)| >= |found|
    ensures RolePass(found, roles)[..|found|] == found
    ensures forall x :: x in RolePass(found, roles) <==> x in found || (x in LandmarkRoles && x in roles)
    ensures (forall i, j :: 0 <= i < j < |found| ==> found[i] != found[j]) ==>
      forall i, j :: 0 <= i < j < |RolePass(found, roles)| ==> RolePass(found, roles)[i] != RolePass(found, roles)[j]
  {
    if roles != [] {
      var n := |roles| - 1;
      RolePassKeepsFound(found, roles[..n]);
      assert forall x :: x in roles <==> x in roles[..n] || x == roles[n];
    }
  }

  /**
   * The landmark results hold only the three landmark roles, none twice; a role
   * is present exactly when its tag exists or some element declares it; the
   * tag-detected roles come first, in main, navigation, banner order.
   */
  lemma LandmarksFound(present: set<string>, roles: seq<string>)
    ensures forall x :: x in Landmarks(present, roles) ==> x in LandmarkRoles
    ensures forall i, j :: 0 <= i < j < |Landmarks(present, roles)| ==> Landmarks(present, roles)[i] != Landmarks(present, roles)[j]
    ensures "main" in Landmarks(present, roles) <==> "main" in present || "main" in roles
    ensures "navigation" in Landmarks(present, roles) <==> "nav" in present || "navigation" in roles
    ensures "banner" in Landmarks(present, roles) <==> "header" in present || "banner" in roles
    ensures |Landmarks(present, roles)| >= |TagPass(LandmarkTags, present)|
    ensures Landmarks(present, roles)[..|TagPass(LandmarkTags, present)|] == TagPass(LandmarkTags, present)
  {
    var t := TagPass(LandmarkTags, present);
    var t1 := TagPass(LandmarkTags[..1], present);
    var t2 := TagPass(LandmarkTags[..2], present);
    assert LandmarkTags[..1][..0] == [];
    assert LandmarkTags[..1][0] == ("main", "main");
    assert TagPass(LandmarkTags[..1][..0], present) == [];
    assert t1 == (if "main" in present then ["main"] else []);
    assert LandmarkTags[..2][..1] == LandmarkTags[..1];
    assert t2 == t1 + (if "nav" in present then ["navigation"] else []);
    assert LandmarkTags[..3][..2] == LandmarkTags[..2];
    assert LandmarkTags[..3] == LandmarkTags;
    assert t == (if "main" in present then ["main"] else []) + (if "nav" in present then ["navigation"] else [])
              + (if "header" in present then ["banner"] else []);
    RolePassKeepsFound(t, roles);
  }

  /** The landmark collection inside the page: first by tag, then by explicit role attribute. */
  method CollectLandmarks(present: set<string>, roles: seq<string>) returns (results: seq<string>)
    ensures results == Landmarks(present, roles)
  {
    results := [];
    var k := 0;
    while k < |LandmarkTags|
      invariant 0 <= k <= |LandmarkTags|
      invariant results == TagPass(LandmarkTags[..k], present)
    {
      assert LandmarkTags[..k + 1][..k] == LandmarkTags[..k];
      var (tag, role) := LandmarkTags[k];
      if tag in present {
        results := results + [role];
      }
      k := k + 1;
    }
    assert LandmarkTags[..k] == LandmarkTags;
    ghost var found := results;
    var i := 0;
    while i < |roles|
      invariant 0 <= i <= |roles|
      invariant results == RolePass(found, roles[..i])
    {
      assert roles[..i + 1][..i] == roles[..i];
      var role := roles[i];
      if role in LandmarkRoles && role !in results {
        results := results + [role];
      }
      i := i + 1;
    }
    assert roles[..i] == roles;
  }

  // ---------------------------------------------------------------------
  // Form labels
  // ---------------------------------------------------------------------

  /**
   * A form control as the page describes it: its id, whether a `label[for=id]`
   * exists, and its `aria-label` and `aria-labelledby` attributes.
   */
  datatype FormField = FormField(id: string, labelForId: bool, ariaLabel: Option<string>, ariaLabelledBy: Option<string>)

  /** `labeled`: a label pointing at a non-empty id, or a non-empty ARIA label. */
  predicate Labeled(f: FormField)
  {
    (f.id != "" && f.labelForId) || Truthy(f.ariaLabel) || Truthy(f.ariaLabelledBy)
  }

  function UnlabeledCount(fields: seq<FormField>): (c: nat)
    ensures c <= |fields|
    ensures c == 0 <==> forall i :: 0 <= i < |fields| ==> Labeled(fields[i])
    ensures c == |fields| <==> forall i :: 0 <= i < |fields| ==> !Labeled(fields[i])
  {
    if fields == [] then 0
    else
      var n := |fields| - 1;
      assert forall i :: 0 <= i < n ==> fields[..n][i] == fields[i];
      UnlabeledCount(fields[..n]) + (if Labeled(fields[n]) then 0 else 1)
  }

  /** The `unlabeled` counting loop of both form-label tests. */
  method CountUnlabeled(fields: seq<FormField>) returns (unlabeled: nat)
    ensures unlabeled == UnlabeledCount(fields)
  {
    unlabeled := 0;
    var i := 0;
    while i < |fields|
      invariant 0 <= i <= |fields|
      invariant unlabeled == UnlabeledCount(fields[..i])
    {
      assert fields[..i + 1][..i] == fields[..i];
      if !Labeled(fields[i]) {
        unlabeled := unlabeled + 1;
      }
      i := i + 1;
    }
    assert fields[..i] == fields;
  }

  // ---------------------------------------------------------------------
  // Positive tabindex
  // ---------------------------------------------------------------------

  /** An element of the visual order: tag description, rounded top, `tabindex` attribute. */
  datatype VisualElement = VisualElement(tag: string, y: int, tabindex: Option<string>)

  function DigitValue(c: char): nat
    requires IsDigit(c)
  {
    c as int - '0' as int
  }

  function DecimalValue(ds: string): nat
    requires AllDigits(ds, 0, |ds|)
  {
    if ds == [] then 0
    else
      var n := |ds| - 1;
      assert AllDigits(ds[..n], 0, n);
      10 * DecimalValue(ds[..n]) + DigitValue(ds[n])
  }

  /**
   * `Number(s)` for the empty string and optionally signed decimal integers;
   * `None` stands for NaN, which is what every other string here gives.
   */
  function JsNumber(s: string): Option<int>
  {
    if s == "" then Some(0)
    else if s[0] == '+' || s[0] == '-' then
      if |s| > 1 && AllDigits(s, 1, |s|) then
        assert AllDigits(s[1..], 0, |s| - 1);
        var magnitude: int := DecimalValue(s[1..]);
        Some(if s[0] == '-' then -magnitude else magnitude)
      else None
    else if AllDigits(s, 0, |s|) then Some(DecimalValue(s))
    else None
  }

  /** `el.tabindex && Number(el.tabindex) > 0`. */
  predicate PositiveTabindex(e: VisualElement)
  {
    Truthy(e.tabindex) && JsNumber(e.tabindex.value).Some? && JsNumber(e.tabindex.value).value > 0
  }

  /** A digit string denotes a positive number exactly when some digit is not '0'. */
  lemma {:induction false} DecimalPositive(ds: string)
    requires AllDigits(ds, 0, |ds|)
    ensures DecimalValue(ds) > 0 <==> exists i :: 0 <= i < |ds| && ds[i] != '0'
  {
    if ds != [] {
      var n := |ds| - 1;
      DecimalPositive(ds[..n]);
      assert forall i :: 0 <= i < n ==> ds[..n][i] == ds[i];
    }
  }

  /** An unsigned digit string is a positive tabindex exactly when it has a non-zero digit. */
  lemma DigitsTabindexPositive(e: VisualElement)
    requires e.tabindex.Some? && e.tabindex.value != "" && AllDigits(e.tabindex.value, 0, |e.tabindex.value|)
    ensures PositiveTabindex(e) <==> exists i :: 0 <= i < |e.tabindex.value| && e.tabindex.value[i] != '0'
  {
    DecimalPositive(e.tabindex.value);
  }

  /** `visual.filter(el => el.tabindex && Number(el.tabindex) > 0)`. */
  function BadTabindex(visual: seq<VisualElement>): (r: seq<VisualElement>)
    ensures |r| <= |visual|
    ensures forall e :: e in r <==> e in visual && PositiveTabindex(e)
  {
    if visual == [] then []
    else (if PositiveTabindex(visual[0]) then [visual[0]] else []) + BadTabindex(visual[1..])
  }

  /** The filter keeps the page order: filtering a concatenation filters each part. */
  lemma {:induction false} BadTabindexConcat(a: seq<VisualElement>, b: seq<VisualElement>)
    ensures BadTabindex(a + b) == BadTabindex(a) + BadTabindex(b)
  {
    if a == [] {
      assert a + b == b;
    } else {
      assert (a + b)[1..] == a[1..] + b;
      BadTabindexConcat(a[1..], b);
    }
  }

  /**
   * The tab-order test: three presses more than there are visible interactive
   * elements, every reported stop kept, and the elements with a positive
   * tabindex singled out.
   */
  method TabOrderAgainstVisual(visual: seq<VisualElement>, focusAfter: nat -> Option<string>)
    returns (tabbed: seq<string>, badTabindex: seq<VisualElement>)
    ensures tabbed == AllStops(Observed(|visual| + TabOrderExtraPresses, focusAfter))
    ensures |tabbed| <= |visual| + TabOrderExtraPresses
    ensures badTabindex == BadTabindex(visual)
  {
    tabbed := CollectStops(|visual| + TabOrderExtraPresses, focusAfter);
    badTabindex := BadTabindex(visual);
  }
}

=== FILE: axe_report.dfy ===
/**
 * The post-processing of an axe-core scan in the basic accessibility suite:
 * the histogram of violations by impact and the per-violation report lines.
 */
module AxeReport {
  import opened Wrappers
  import opened Text

  /** A scanned node: the selector path axe reports for it. */
  datatype Node = Node(target: seq<string>)

  /** A rule violation; `impact` is `None` when axe reports `null`. */
  datatype Violation = Violation(id: string, help: string, helpUrl: string, impact: Option<string>, nodes: seq<Node>)

  const UnknownImpact := "unknown"

  /** `v.impact ?? 'unknown'`: only a missing impact is replaced, an empty one is kept. */
  function ImpactKey(v: Violation): (k: string)
    ensures v.impact.None? ==> k == UnknownImpact
    ensures v.impact.Some? ==> k == v.impact.value
  {
    if v.impact.Some? then v.impact.value else UnknownImpact
  }

  /** How many violations have impact key `k`. */
  function CountKey(vs: seq<Violation>, k: string): nat
  {
    if vs == [] then 0
    else CountKey(vs[..|vs| - 1], k) + (if ImpactKey(vs[|vs| - 1]) == k then 1 else 0)
  }

  /** The accumulator after folding over `vs`, starting from the empty record. */
  function Histogram(vs: seq<Violation>): map<string, nat>
  {
    if vs == [] then map[]
    else
      var h := Histogram(vs[..|vs| - 1]);
      var k := ImpactKey(vs[|vs| - 1]);
      h[k := (if k in h then h[k] else 0) + 1]
  }

  /** The histogram loop: `acc[key] = (acc[key] ?? 0) + 1` for each violation in turn. */
  method ImpactCounts(violations: seq<Violation>) returns (counts: map<string, nat>)
    ensures counts == Histogram(violations)
  {
    counts := map[];
    var i := 0;
    while i < |violations|
      invariant 0 <= i <= |violations|
      invariant counts == Histogram(violations[..i])
    {
      assert violations[..i + 1][..i] == violations[..i];
      var key := ImpactKey(violations[i]);
      counts := counts[key := (if key in counts then counts[key] else 0) + 1];
      i := i + 1;
    }
    assert violations[..i] == violations;
  }

  /**
   * A key is present exactly when some violation has it, its count is the
   * number of such violations, and so every present key counts at least one.
   */
  lemma {:induction false} HistogramCounts(vs: seq<Violation>)
    ensures forall k :: k in Histogram(vs) <==> exists i :: 0 <= i < |vs| && ImpactKey(vs[i]) == k
    ensures forall k :: k in Histogram(vs) ==> Histogram(vs)[k] == CountKey(vs, k) >= 1
    ensures forall k :: k !in Histogram(vs) ==> CountKey(vs, k) == 0
  {
    if vs != [] {
      var n := |vs| - 1;
      HistogramCounts(vs[..n]);
      assert forall i :: 0 <= i < n ==> vs[..n][i] == vs[i];
    }
  }

  // ---------------------------------------------------------------------
  // The sum of a record's counts
  // ---------------------------------------------------------------------

  ghost function PickKey(m: map<string, nat>): (k: string)
    requires m != map[]
    ensures k in m
  {
    assert exists k :: k in m by {
      var k :| k in m.Keys;
    }
    var k :| k in m; k
  }

  ghost function Total(m: map<string, nat>): nat
    decreases |m|
  {
    if m == map[] then 0
    else
      var k := PickKey(m);
      assert |m - {k}| < |m| by {
        assert m.Keys == (m - {k}).Keys + {k};
      }
      m[k] + Total(m - {k})
  }

  /** The sum does not depend on the key the definition happens to pick first. */
  lemma {:induction false} TotalRemove(m: map<string, nat>, k: string)
    requires k in m
    ensures Total(m) == m[k] + Total(m - {k})
    decreases |m|
  {
    var j := PickKey(m);
    if j != k {
      assert m.Keys == (m - {j}).Keys + {j};
      assert m.Keys == (m - {k}).Keys + {k};
      TotalRemove(m - {j}, k);
      TotalRemove(m - {k}, j);
      assert m - {j} - {k} == m - {k} - {j};
    }
  }

  /** The counts add up to the number of violations. */
  lemma {:induction false} HistogramTotal(vs: seq<Violation>)
    ensures Total(Histogram(vs)) == |vs|
  {
    if vs != [] {
      var n := |vs| - 1;
      HistogramTotal(vs[..n]);
      var h := Histogram(vs[..n]);
      var k := ImpactKey(vs[n]);
      var c := if k in h then h[k] else 0;
      var h' := h[k := c + 1];
      TotalRemove(h', k);
      assert h' - {k} == h - {k};
      if k in h {
        TotalRemove(h, k);
      } else {
        assert h - {k} == h;
      }
    }
  }

  // ---------------------------------------------------------------------
  // Report lines
  // ---------------------------------------------------------------------

  /** `nodes.flatMap(n => n.target)`. */
  function Flatten(nodes: seq<Node>): (r: seq<string>)
    ensures forall i, j :: 0 <= i < |nodes| && 0 <= j < |nodes[i].target| ==> nodes[i].target[j] in r
  {
    if nodes == [] then []
    else nodes[0].target + Flatten(nodes[1..])
  }

  /** Flattening keeps node order: it distributes over concatenation. */
  lemma {:induction false} FlattenConcat(a: seq<Node>, b: seq<Node>)
    ensures Flatten(a + b) == Flatten(a) + Flatten(b)
  {
    if a == [] {
      assert a + b == b;
    } else {
      assert (a + b)[1..] == a[1..] + b;
      FlattenConcat(a[1..], b);
    }
  }

  const TargetSeparator := " | "

  function Targets(v: Violation): string
  {
    Join(Flatten(v.nodes), TargetSeparator)
  }

  /** Every selector of every node appears in the targets string. */
  lemma TargetsNameEveryNode(v: Violation, i: int, j: int)
    requires 0 <= i < |v.nodes| && 0 <= j < |v.nodes[i].target|
    ensures Contains(Targets(v), v.nodes[i].target[j])
  {
    var flat := Flatten(v.nodes);
    assert v.nodes[i].target[j] in flat;
    var k :| 0 <= k < |flat| && flat[k] == v.nodes[i].target[j];
    JoinContainsPart(flat, TargetSeparator, k);
  }

  /** Adding a node appends its selectors to the targets string after one more separator. */
  lemma TargetsOfAddedNode(v: Violation, node: Node)
    requires Flatten(v.nodes) != [] && |node.target| == 1
    ensures Targets(v.(nodes := v.nodes + [node])) == Targets(v) + TargetSeparator + node.target[0]
  {
    FlattenConcat(v.nodes, [node]);
    assert [node][1..] == [];
    assert Flatten([node]) == [node.target[0]];
    assert Flatten(v.nodes + [node]) == Flatten(v.nodes) + [node.target[0]];
    JoinSnoc(Flatten(v.nodes), node.target[0], TargetSeparator);
  }

  /** The three lines logged for one violation. */
  function DetailLines(v: Violation): (lines: seq<string>)
    ensures |lines| == 3
    ensures lines[0] == "- [" + ImpactKey(v) + "] " + v.id + ": " + v.help
  {
    ["- [" + ImpactKey(v) + "] " + v.id + ": " + v.help,
     "  Help: " + v.helpUrl,
     "  Targets: " + Targets(v)]
  }

  /** A violation without impact is listed under "[unknown]". */
  lemma UnknownImpactLine(v: Violation)
    requires v.impact.None?
    ensures Contains(DetailLines(v)[0], "[unknown]")
  {
    var line := DetailLines(v)[0];
    var head := "- [unknown] ";
    assert line == head + (v.id + ": " + v.help);
    assert head[2..11] == "[unknown]";
    assert line[2..11] == head[2..11];
    assert OccursAt(line, "[unknown]", 2);
  }

  /** The impact a violation's line shows is a key of the histogram, with a missing impact shown as "unknown" in both. */
  lemma ReportedImpactIsCounted(vs: seq<Violation>, i: int)
    requires 0 <= i < |vs|
    ensures ImpactKey(vs[i]) in Histogram(vs)
    ensures vs[i].impact.None? ==> Contains(DetailLines(vs[i])[0], "[unknown]") && UnknownImpact in Histogram(vs)
  {
    HistogramCounts(vs);
    if vs[i].impact.None? {
      UnknownImpactLine(vs[i]);
    }
  }
}

=== FILE: data_masking.dfy ===
/**
 * The checks of the data-masking and session-protection suite that run on
 * values read back from the browser: URLs, element attributes, storage
 * entries, cookies and CVV input values.
 */
module DataMasking {
  import opened Wrappers
  import opened Text

  // ---------------------------------------------------------------------
  // Session tokens in URLs
  // ---------------------------------------------------------------------

  /** The parameter names of the session-token pattern `[?&](token|session|sid|auth|jwt)=`. */
  const SessionWords: seq<string> := ["token", "session", "sid", "auth", "jwt"]

  /**
   * The pattern matches at index `i`: a '?' or '&' followed, ignoring ASCII
   * case, by one of the session words and '='.
   */
  predicate TokenParamAt(url: string, i: int)
  {
    0 <= i < |url| && (url[i] == '?' || url[i] == '&')
    && exists w :: w in SessionWords && OccursAt(Lower(url), w + "=", i + 1)
  }

  /** The alternation of the pattern, tried word by word at index `j` of the lowered URL. */
  predicate SessionWordAt(lowered: string, j: int)
  {
    OccursAt(lowered, "token=", j) || OccursAt(lowered, "session=", j) || OccursAt(lowered, "sid=", j)
    || OccursAt(lowered, "auth=", j) || OccursAt(lowered, "jwt=", j)
  }

  lemma SessionWordAtIff(lowered: string, j: int)
    ensures SessionWordAt(lowered, j) <==> exists w :: w in SessionWords && OccursAt(lowered, w + "=", j)
  {
    assert forall w :: w in SessionWords <==> w == "token" || w == "session" || w == "sid" || w == "auth" || w == "jwt";
    assert "token" + "=" == "token=" && "session" + "=" == "session=" && "sid" + "=" == "sid=";
    assert "auth" + "=" == "auth=" && "jwt" + "=" == "jwt=";
  }

  /** The regular-expression search, trying each start index from `from` on. */
  function SessionTokenFrom(url: string, from: nat): (found: bool)
    requires from <= |url|
    ensures found <==> exists i :: from <= i && TokenParamAt(url, i)
    decreases |url| - from
  {
    if from == |url| then false
    else
      SessionWordAtIff(Lower(url), from + 1);
      var here := (url[from] == '?' || url[from] == '&') && SessionWordAt(Lower(url), from + 1);
      assert here <==> TokenParamAt(url, from);
      here || SessionTokenFrom(url, from + 1)
  }

  /** `SESSION_TOKEN_PATTERN.test(url)`. */
  function SessionTokenInUrl(url: string): (found: bool)
    ensures found <==> exists i :: TokenParamAt(url, i)
  {
    SessionTokenFrom(url, 0)
  }

  /** The pattern ignores case: a URL and its lowered form match alike. */
  lemma SessionTokenIgnoresCase(url: string)
    ensures SessionTokenInUrl(url) == SessionTokenInUrl(Lower(url))
  {
    var lu := Lower(url);
    assert Lower(lu) == lu;
    forall i ensures TokenParamAt(url, i) <==> TokenParamAt(lu, i) {
      if 0 <= i < |url| {
        assert url[i] == '?' <==> lu[i] == '?';
        assert url[i] == '&' <==> lu[i] == '&';
      }
    }
  }

  /** The query parameter names whose presence in a URL fails the test, in the order checked. */
  const SensitiveParams: seq<string> := ["password", "pwd", "secret", "key", "apikey"]

  /**
   * The first of `params` that the lowered URL contains: the loop of
   * expectations stops at the first one that fails.
   */
  function FirstContained(lowered: string, params: seq<string>): (r: Option<nat>)
    ensures r.None? <==> forall k :: 0 <= k < |params| ==> !Contains(lowered, params[k])
    ensures r.Some? ==> r.value < |params| && Contains(lowered, params[r.value])
    ensures r.Some? ==> forall k :: 0 <= k < r.value ==> !Contains(lowered, params[k])
  {
    if params == [] then None
    else if Contains(lowered, params[0]) then Some(0)
    else
      match FirstContained(lowered, params[1..])
      case None => None
      case Some(k) => Some(k + 1)
  }

  /** The sensitive parameter the URL check reports, if any. */
  function SensitiveParamInUrl(url: string): (r: Option<string>)
    ensures r.None? <==> forall p :: p in SensitiveParams ==> !Contains(Lower(url), p)
    ensures r.Some? ==> r.value in SensitiveParams && Contains(Lower(url), r.value)
    ensures r.Some? ==> exists k :: 0 <= k < |SensitiveParams| && r.value == SensitiveParams[k] &&
                          forall j :: 0 <= j < k ==> !Contains(Lower(url), SensitiveParams[j])
  {
    match FirstContained(Lower(url), SensitiveParams)
    case None => None
    case Some(k) => Some(SensitiveParams[k])
  }

  /** "apikey" is never the parameter reported: any URL containing it contains "key", which is checked first. */
  lemma ApiKeyNeverReported(url: string)
    ensures SensitiveParamInUrl(url) != Some("apikey")
  {
    var lowered := Lower(url);
    var r := FirstContained(lowered, SensitiveParams);
    if r == Some(4) {
      var i :| 0 <= i <= |lowered| - 6 && OccursAt(lowered, "apikey", i);
      assert lowered[i + 3..i + 6] == lowered[i..i + 6][3..] == "key";
      assert OccursAt(lowered, "key", i + 3);
      assert Contains(lowered, SensitiveParams[3]);
    }
  }

  // ---------------------------------------------------------------------
  // Long digit runs in attributes
  // ---------------------------------------------------------------------

  /** `value[i..i + n]` is a run of `n` digits. */
  predicate DigitsRun(value: string, i: int, n: int)
  {
    0 <= i && 0 <= n && i + n <= |value| && AllDigits(value, i, i + n)
  }

  /** `/\d{10,16}/` matches starting at `i`: between ten and sixteen digits follow. */
  predicate LongDigitsAt(value: string, i: int)
  {
    exists n :: 10 <= n <= 16 && DigitsRun(value, i, n)
  }

  /** `/\d{10,16}/.test(value)`: the unanchored pattern flags any run of at least ten digits. */
  function LongDigitRun(value: string): (flagged: bool)
    ensures flagged <==> exists i :: DigitsRun(value, i, 10)
  {
    var found := exists i :: 0 <= i < |value| && LongDigitsAt(value, i);
    assert found ==> exists i :: DigitsRun(value, i, 10) by {
      if found {
        var i :| 0 <= i < |value| && LongDigitsAt(value, i);
        var n :| 10 <= n <= 16 && DigitsRun(value, i, n);
        assert DigitsRun(value, i, 10);
      }
    }
    assert (exists i :: DigitsRun(value, i, 10)) ==> found by {
      if i :| DigitsRun(value, i, 10) {
        assert LongDigitsAt(value, i);
      }
    }
    found
  }

  /** An attribute of an element carrying account, number or card data. */
  datatype Attribute = Attribute(name: string, value: string)

  /** `${attr.name}="${attr.value}"`. */
  function AttributeFinding(a: Attribute): string
  {
    a.name + "=\"" + a.value + "\""
  }

  function ElementFindings(attrs: seq<Attribute>): (r: seq<string>)
    ensures |r| <= |attrs|
    ensures r == [] <==> forall k :: 0 <= k < |attrs| ==> !LongDigitRun(attrs[k].value)
  {
    if attrs == [] then []
    else
      var n := |attrs| - 1;
      assert forall k :: 0 <= k < n ==> attrs[..n][k] == attrs[k];
      ElementFindings(attrs[..n]) + (if LongDigitRun(attrs[n].value) then [AttributeFinding(attrs[n])] else [])
  }

  /** The findings over all elements, in document and attribute order. */
  function AttributeFindings(elements: seq<seq<Attribute>>): (r: seq<string>)
    ensures r == [] <==> forall e, k :: 0 <= e < |elements| && 0 <= k < |elements[e]| ==> !LongDigitRun(elements[e][k].value)
  {
    if elements == [] then []
    else
      var n := |elements| - 1;
      assert forall e :: 0 <= e < n ==> elements[..n][e] == elements[e];
      AttributeFindings(elements[..n]) + ElementFindings(elements[n])
  }

  /** The nested `forEach` loops that collect attribute findings inside the page. */
  method ScanAttributes(elements: seq<seq<Attribute>>) returns (findings: seq<string>)
    ensures findings == AttributeFindings(elements)
  {
    findings := [];
    var e := 0;
    while e < |elements|
      invariant 0 <= e <= |elements|
      invariant findings == AttributeFindings(elements[..e])
    {
      assert elements[..e + 1][..e] == elements[..e];
      var attrs := elements[e];
      var k := 0;
      while k < |attrs|
        invariant 0 <= k <= |attrs|
        invariant findings == AttributeFindings(elements[..e]) + ElementFindings(attrs[..k])
      {
        assert attrs[..k + 1][..k] == attrs[..k];
        if LongDigitRun(attrs[k].value) {
          findings := findings + [AttributeFinding(attrs[k])];
        }
        k := k + 1;
      }
      assert attrs[..k] == attrs;
      e := e + 1;
    }
    assert elements[..e] == elements;
  }

  // ---------------------------------------------------------------------
  // Browser storage
  // ---------------------------------------------------------------------

  /** Words that make a storage key critical. */
  const CriticalKeys: seq<string> := ["password", "secret", "apikey", "credential", "private"]

  /** A storage entry: its key and what `getItem` returns for it. */
  datatype StorageEntry = StorageEntry(key: string, item: Option<string>)

  /** `/password|secret/i.test(value)`. */
  predicate SensitiveValue(value: string)
  {
    Contains(Lower(value), "password") || Contains(Lower(value), "secret")
  }

  /** A string read that may give nothing, with "" in its place: `getItem(key) || ''` and `inputValue().catch(() => '')`. */
  function OrEmpty(read: Option<string>): string
  {
    if read.Some? then read.value else ""
  }

  /** One finding per critical word the lowered key contains, in word order. */
  function KeyFindings(area: string, key: string, words: seq<string>): (r: seq<string>)
    ensures |r| == |set k | 0 <= k < |words| && Contains(Lower(key), words[k])|
    ensures r == [] <==> forall k :: 0 <= k < |words| ==> !Contains(Lower(key), words[k])
    ensures forall f :: f in r ==> f == area + ": " + key
  {
    if words == [] then []
    else
      var n := |words| - 1;
      assert forall k :: 0 <= k < n ==> words[..n][k] == words[k];
      var before := set k | 0 <= k < n && Contains(Lower(key), words[..n][k]);
      var all := set k | 0 <= k < |words| && Contains(Lower(key), words[k]);
      assert all == before + (if Contains(Lower(key), words[n]) then {n} else {});
      assert n !in before;
      KeyFindings(area, key, words[..n]) + (if Contains(Lower(key), words[n]) then [area + ": " + key] else [])
  }

  /** The findings for one entry; an empty key is skipped. */
  function EntryFindings(area: string, e: StorageEntry): seq<string>
  {
    if e.key == "" then []
    else
      KeyFindings(area, e.key, CriticalKeys)
      + (if SensitiveValue(OrEmpty(e.item)) then [area + " value contains sensitive data: " + e.key] else [])
  }

  /** An entry is flagged when its key is non-empty and contains a critical word or its value looks sensitive. */
  predicate Flagged(e: StorageEntry)
  {
    e.key != "" && ((exists k :: 0 <= k < |CriticalKeys| && Contains(Lower(e.key), CriticalKeys[k])) || SensitiveValue(OrEmpty(e.item)))
  }

  function StorageFindings(area: string, entries: seq<StorageEntry>): seq<string>
  {
    if entries == [] then []
    else
      var n := |entries| - 1;
      StorageFindings(area, entries[..n]) + EntryFindings(area, entries[n])
  }

  /** An entry contributes one finding per critical word in its key, plus one for a sensitive value. */
  lemma EntryFindingCount(area: string, e: StorageEntry)
    requires e.key != ""
    ensures |EntryFindings(area, e)| == |KeyFindings(area, e.key, CriticalKeys)| + (if SensitiveValue(OrEmpty(e.item)) then 1 else 0)
    ensures EntryFindings(area, e) == [] <==> !Flagged(e)
  {
  }

  /** The storage check passes exactly when no entry is flagged. */
  lemma {:induction false} StorageFindingsEmpty(area: string, entries: seq<StorageEntry>)
    ensures StorageFindings(area, entries) == [] <==> forall i :: 0 <= i < |entries| ==> !Flagged(entries[i])
  {
    if entries != [] {
      var n := |entries| - 1;
      var prefix := entries[..n];
      var last := entries[n];
      StorageFindingsEmpty(area, prefix);
      assert StorageFindings(area, entries) == StorageFindings(area, prefix) + EntryFindings(area, last);
      if last.key != "" {
        EntryFindingCount(area, last);
      }
      assert EntryFindings(area, last) == [] <==> !Flagged(last);
      assert forall i :: 0 <= i < n ==> prefix[i] == entries[i];
    }
  }

  /** The inner loop over the critical words for one non-empty key. */
  method CriticalWordFindings(area: string, key: string) returns (found: seq<string>)
    ensures found == KeyFindings(area, key, CriticalKeys)
  {
    var lowerKey := Lower(key);
    found := [];
    var k := 0;
    while k < |CriticalKeys|
      invariant 0 <= k <= |CriticalKeys|
      invariant found == KeyFindings(area, key, CriticalKeys[..k])
    {
      assert CriticalKeys[..k + 1][..k] == CriticalKeys[..k];
      if Contains(lowerKey, CriticalKeys[k]) {
        found := found + [area + ": " + key];
      }
      k := k + 1;
    }
    assert CriticalKeys[..k] == CriticalKeys;
  }

  /** One storage area's loop: each key, then each critical word, then the value. */
  method ScanStorage(area: string, entries: seq<StorageEntry>) returns (findings: seq<string>)
    ensures findings == StorageFindings(area, entries)
  {
    findings := [];
    var i := 0;
    while i < |entries|
      invariant 0 <= i <= |entries|
      invariant findings == StorageFindings(area, entries[..i])
    {
      assert entries[..i + 1][..i] == entries[..i];
      var key := entries[i].key;
      if key != "" {
        var hits := CriticalWordFindings(area, key);
        findings := findings + hits;
        var value := OrEmpty(entries[i].item);
        if SensitiveValue(value) {
          findings := findings + [area + " value contains sensitive data: " + key];
        }
      }
      i := i + 1;
    }
    assert entries[..i] == entries;
  }

  /** Both areas are scanned by the same loop, local storage first. */
  method ScanBrowserStorage(local: seq<StorageEntry>, session: seq<StorageEntry>) returns (findings: seq<string>)
    ensures findings == StorageFindings("localStorage", local) + StorageFindings("sessionStorage", session)
    ensures findings == [] <==> (forall i :: 0 <= i < |local| ==> !Flagged(local[i])) && (forall i :: 0 <= i < |session| ==> !Flagged(session[i]))
  {
    var fromLocal := ScanStorage("localStorage", local);
    var fromSession := ScanStorage("sessionStorage", session);
    findings := fromLocal + fromSession;
    StorageFindingsEmpty("localStorage", local);
    StorageFindingsEmpty("sessionStorage", session);
  }

  // ---------------------------------------------------------------------
  // Cookies and CVV inputs
  // ---------------------------------------------------------------------

  datatype Cookie = Cookie(name: string, value: string, httpOnly: bool)

  /** `cookies.some(c => c.name.toLowerCase().includes('session') || c.httpOnly)`. */
  function HasSessionCookie(cookies: seq<Cookie>): (b: bool)
    ensures b <==> exists i :: 0 <= i < |cookies| && (Contains(Lower(cookies[i].name), "session") || cookies[i].httpOnly)
  {
    if cookies == [] then false
    else
      Contains(Lower(cookies[0].name), "session") || cookies[0].httpOnly || HasSessionCookie(cookies[1..])
  }

  /**
   * The first CVV input whose value is not empty: the loop of expectations
   * stops there; `None` means every input passes.
   */
  function FirstFilledCvv(values: seq<Option<string>>): (r: Option<nat>)
    ensures r.None? <==> forall i :: 0 <= i < |values| ==> values[i].None? || values[i].value == ""
    ensures r.Some? ==> r.value < |values| && values[r.value].Some? && values[r.value].value != ""
    ensures r.Some? ==> forall i :: 0 <= i < r.value ==> OrEmpty(values[i]) == ""
  {
    if values == [] then None
    else if OrEmpty(values[0]) != "" then Some(0)
    else
      match FirstFilledCvv(values[1..])
      case None => None
      case Some(k) => Some(k + 1)
  }
}

=== FILE: fixtures.dfy ===
/**
 * The fixture layer: which test user a test runs as, and the login ceremony
 * that `loginAs` drives against the page, recorded as a trace of abstract
 * browser actions.
 */
module Fixtures {
  import opened Wrappers
  import opened Text
  import opened Users

  /** The `userId` option's default: no explicit user. */
  const DefaultUserId: string := ""

  /** The `testUser` fixture: the named user when `userId` is non-empty, else the default user. */
  function SelectTestUser(users: seq<TestUser>, userId: string): (r: Result<TestUser, string>)
    requires userId != "" || |users| > 0
    ensures r.Ok? ==> r.value in users
    ensures userId == "" ==> r == Ok(users[0])
    ensures userId != "" && r.Ok? ==> r.value.id == userId
    ensures r.Err? <==> userId != "" && forall u :: u in users ==> u.id != userId
    ensures r.Err? ==> Contains(r.error, userId)
    ensures userId != "" ==> r == GetUser(users, userId)
  {
    if userId != "" then
      NotFoundMessageNamesIds(userId, users);
      GetUser(users, userId)
    else
      Ok(DefaultUser(users))
  }

  /** A test that sets no `userId` runs as the first user of the store. */
  lemma DefaultOptionSelectsFirstUser(entries: Entries)
    requires |entries| > 0
    ensures SelectTestUser(TestUsers(entries), DefaultUserId) == Ok(MakeUser(entries[0].0, entries[0].1))
  {
    DefaultIsFirstKey(entries);
  }

  /** How an action finds its element on the page. */
  datatype Locator =
    | Css(selector: string)
    | CssWithText(selector: string, text: string)
    | Role(role: string, name: string)

  /** The browser actions the ceremony performs. */
  datatype Action =
    | Goto(url: string)
    | WaitVisible(target: Locator)
    | Fill(target: Locator, value: string)
    | Click(target: Locator)
    | SelectLabel(target: Locator, choice: string)
    | WaitForUrl(fragment: string)

  const LoginPath: string := "/#/administrationGeneral/login"
  const UsernameField: Locator := Css("#step01")
  const UsernameNext: Locator := CssWithText("icb-login-step-user a", "Next")
  const PasswordField: Locator := Css("#step02")
  const PasswordNext: Locator := CssWithText("icb-login-step-password a", "Next")
  const MfaDevice: Locator := Css("select")
  const MfaOption: string := "SMS Code"
  const MfaNext: Locator := CssWithText("icb-login-step-multifactor-device a", "Next")
  const SmsField: Locator := Role("textbox", "Enter your SMS Code")
  const ConfirmLink: Locator := CssWithText("a:visible", "Confirm")
  /** The URL pattern `/\/home/` waited for at the end. */
  const HomeFragment: string := "/home"

  const MissingBaseUrlMessage: string := "BASE_URL environment variable is required"

  /** `!baseUrl`: an unset or empty BASE_URL counts as missing. */
  predicate BaseUrlMissing(baseUrl: Option<string>)
  {
    baseUrl.None? || baseUrl.value == ""
  }

  /** Open the login page and wait for the username field. */
  function OpeningPhase(loginUrl: string): seq<Action>
  {
    [Goto(loginUrl), WaitVisible(UsernameField)]
  }

  /** The username step. */
  function UsernamePhase(username: string): seq<Action>
  {
    [Fill(UsernameField, username), Click(UsernameNext)]
  }

  /** The password step. */
  function PasswordPhase(password: string): seq<Action>
  {
    [WaitVisible(PasswordField), Fill(PasswordField, password), Click(PasswordNext)]
  }

  /** The MFA device selection. */
  const MfaPhase: seq<Action> := [WaitVisible(MfaDevice), SelectLabel(MfaDevice, MfaOption), Click(MfaNext)]

  /** The SMS code step. */
  function SmsPhase(smsCode: string): seq<Action>
  {
    [WaitVisible(SmsField), Fill(SmsField, smsCode), Click(ConfirmLink)]
  }

  /** Waiting for the `/\/home/` URL, the ceremony's success signal. */
  const HomePhase: seq<Action> := [WaitForUrl(HomeFragment)]

  /** The whole ceremony once BASE_URL is known. */
  function Ceremony(baseUrl: string, user: TestUser): seq<Action>
  {
    OpeningPhase(baseUrl + LoginPath) + (UsernamePhase(user.username) + (PasswordPhase(user.password)
      + (MfaPhase + (SmsPhase(user.smsCode) + HomePhase))))
  }

  /** What each action contributes to a projection of a trace, concatenated in order. */
  function Collect(steps: seq<Action>, f: Action -> seq<string>): seq<string>
  {
    if steps == [] then [] else f(steps[0]) + Collect(steps[1..], f)
  }

  function FilledBy(a: Action): seq<string>
  {
    if a.Fill? then [a.value] else []
  }

  function SelectedBy(a: Action): seq<string>
  {
    if a.SelectLabel? then [a.choice] else []
  }

  function NavigatedBy(a: Action): seq<string>
  {
    if a.Goto? then [a.url] else []
  }

  /** The values typed into fields, in order. */
  function FilledValues(steps: seq<Action>): seq<string>
  {
    Collect(steps, FilledBy)
  }

  /** The option labels chosen, in order. */
  function SelectedLabels(steps: seq<Action>): seq<string>
  {
    Collect(steps, SelectedBy)
  }

  /** The navigations, in order. */
  function Navigations(steps: seq<Action>): seq<string>
  {
    Collect(steps, NavigatedBy)
  }

  lemma {:induction false} CollectConcat(a: seq<Action>, b: seq<Action>, f: Action -> seq<string>)
    ensures Collect(a + b, f) == Collect(a, f) + Collect(b, f)
  {
    if a == [] {
      assert a + b == b;
    } else {
      assert (a + b)[1..] == a[1..] + b;
      CollectConcat(a[1..], b, f);
    }
  }

  lemma CollectShort(s: seq<Action>, f: Action -> seq<string>)
    requires 1 <= |s| <= 3
    ensures Collect(s, f) == f(s[0]) + (if |s| > 1 then f(s[1]) else []) + (if |s| > 2 then f(s[2]) else [])
  {
    var t := s[1..];
    assert Collect(s, f) == f(s[0]) + Collect(t, f);
    if |t| > 0 {
      var u := t[1..];
      assert Collect(t, f) == f(t[0]) + Collect(u, f);
      if |u| > 0 {
        assert Collect(u, f) == f(u[0]) + Collect(u[1..], f);
        assert u[1..] == [];
      }
    }
  }

  /** A projection of the ceremony is the projections of its phases, in order. */
  lemma CollectCeremony(baseUrl: string, user: TestUser, f: Action -> seq<string>)
    ensures Collect(Ceremony(baseUrl, user), f)
         == Collect(OpeningPhase(baseUrl + LoginPath), f) + (Collect(UsernamePhase(user.username), f)
          + (Collect(PasswordPhase(user.password), f) + (Collect(MfaPhase, f)
          + (Collect(SmsPhase(user.smsCode), f) + Collect(HomePhase, f)))))
  {
    var p1, p2, p3 := OpeningPhase(baseUrl + LoginPath), UsernamePhase(user.username), PasswordPhase(user.password);
    var p4, p5, p6 := MfaPhase, SmsPhase(user.smsCode), HomePhase;
    CollectConcat(p5, p6, f);
    CollectConcat(p4, p5 + p6, f);
    CollectConcat(p3, p4 + (p5 + p6), f);
    CollectConcat(p2, p3 + (p4 + (p5 + p6)), f);
    CollectConcat(p1, p2 + (p3 + (p4 + (p5 + p6))), f);
  }

  /** Every field that receives a value was waited for by the step just before. */
  predicate InputsAwaited(steps: seq<Action>)
  {
    forall i :: 0 <= i < |steps| && (steps[i].Fill? || steps[i].SelectLabel?) ==>
      i > 0 && steps[i - 1] == WaitVisible(steps[i].target)
  }

  /** The ceremony as one flat list of its fourteen actions. */
  lemma CeremonyFlat(baseUrl: string, user: TestUser)
    ensures Ceremony(baseUrl, user) == [
      Goto(baseUrl + LoginPath), WaitVisible(UsernameField),
      Fill(UsernameField, user.username), Click(UsernameNext),
      WaitVisible(PasswordField), Fill(PasswordField, user.password), Click(PasswordNext),
      WaitVisible(MfaDevice), SelectLabel(MfaDevice, MfaOption), Click(MfaNext),
      WaitVisible(SmsField), Fill(SmsField, user.smsCode), Click(ConfirmLink),
      WaitForUrl(HomeFragment)]
  {
  }

  /** The ceremony navigates exactly once, to the login page under BASE_URL. */
  lemma CeremonyNavigatesOnce(baseUrl: string, user: TestUser)
    ensures Navigations(Ceremony(baseUrl, user)) == [baseUrl + LoginPath]
  {
    var p1, p2, p3 := OpeningPhase(baseUrl + LoginPath), UsernamePhase(user.username), PasswordPhase(user.password);
    var p4, p5, p6 := MfaPhase, SmsPhase(user.smsCode), HomePhase;
    CollectCeremony(baseUrl, user, NavigatedBy);
    CollectShort(p1, NavigatedBy);
    CollectShort(p2, NavigatedBy);
    CollectShort(p3, NavigatedBy);
    CollectShort(p4, NavigatedBy);
    CollectShort(p5, NavigatedBy);
    CollectShort(p6, NavigatedBy);
  }

  /** The ceremony types exactly the username, the password and the SMS code, in that order. */
  lemma CeremonyFillsSecretsInOrder(baseUrl: string, user: TestUser)
    ensures FilledValues(Ceremony(baseUrl, user)) == [user.username, user.password, user.smsCode]
  {
    var p1, p2, p3 := OpeningPhase(baseUrl + LoginPath), UsernamePhase(user.username), PasswordPhase(user.password);
    var p4, p5, p6 := MfaPhase, SmsPhase(user.smsCode), HomePhase;
    CollectCeremony(baseUrl, user, FilledBy);
    CollectShort(p1, FilledBy);
    CollectShort(p2, FilledBy);
    CollectShort(p3, FilledBy);
    CollectShort(p4, FilledBy);
    CollectShort(p5, FilledBy);
    CollectShort(p6, FilledBy);
  }

  /** The ceremony makes one MFA choice, "SMS Code", whoever the user is. */
  lemma CeremonyAlwaysPicksSms(baseUrl: string, user: TestUser)
    ensures SelectedLabels(Ceremony(baseUrl, user)) == [MfaOption]
  {
    var p1, p2, p3 := OpeningPhase(baseUrl + LoginPath), UsernamePhase(user.username), PasswordPhase(user.password);
    var p4, p5, p6 := MfaPhase, SmsPhase(user.smsCode), HomePhase;
    CollectCeremony(baseUrl, user, SelectedBy);
    CollectShort(p1, SelectedBy);
    CollectShort(p2, SelectedBy);
    CollectShort(p3, SelectedBy);
    CollectShort(p4, SelectedBy);
    CollectShort(p5, SelectedBy);
    CollectShort(p6, SelectedBy);
  }

  /** It opens on the login page, waits for each field before using it, and ends on the home URL. */
  lemma CeremonyOrder(baseUrl: string, user: TestUser)
    ensures |Ceremony(baseUrl, user)| == 14
    ensures Ceremony(baseUrl, user)[0] == Goto(baseUrl + LoginPath)
    ensures Ceremony(baseUrl, user)[13] == WaitForUrl(HomeFragment)
    ensures InputsAwaited(Ceremony(baseUrl, user))
  {
    CeremonyFlat(baseUrl, user);
    var steps := Ceremony(baseUrl, user);
    forall i | 0 <= i < |steps| && (steps[i].Fill? || steps[i].SelectLabel?)
      ensures i > 0 && steps[i - 1] == WaitVisible(steps[i].target)
    {
      assert i == 2 || i == 5 || i == 8 || i == 11;
    }
  }

  /** What an attempt at a script did: the actions attempted, and the one that timed out, if any. */
  datatype Run = Run(attempted: seq<Action>, timedOut: Option<Action>)

  /**
   * Awaiting the actions one after another: the first action the page never
   * completes ends the attempt with a timeout; nothing after it is tried.
   */
  function Attempt(script: seq<Action>, timesOut: set<Action>): (r: Run)
    ensures |r.attempted| <= |script| && r.attempted == script[..|r.attempted|]
    ensures r.timedOut.None? <==> r.attempted == script && forall a :: a in script ==> a !in timesOut
    ensures r.timedOut.Some? ==>
              && |r.attempted| > 0 && r.timedOut.value == r.attempted[|r.attempted| - 1]
              && r.timedOut.value in timesOut
              && forall k :: 0 <= k < |r.attempted| - 1 ==> r.attempted[k] !in timesOut
  {
    if script == [] then Run([], None)
    else if script[0] in timesOut then Run([script[0]], Some(script[0]))
    else
      var rest := Attempt(script[1..], timesOut);
      assert script == [script[0]] + script[1..];
      Run([script[0]] + rest.attempted, rest.timedOut)
  }

  datatype LoginOutcome = LoggedIn | MissingBaseUrl(message: string) | TimedOut(step: Action)

  /** What `loginAs(user)` leaves behind: the actions it attempted and how it ended. */
  function LoginRun(baseUrl: Option<string>, user: TestUser, timesOut: set<Action>): (r: (seq<Action>, LoginOutcome))
    ensures BaseUrlMissing(baseUrl) <==> r.1.MissingBaseUrl?
    ensures BaseUrlMissing(baseUrl) ==> r == ([], MissingBaseUrl(MissingBaseUrlMessage))
    ensures !BaseUrlMissing(baseUrl) ==> |r.0| > 0 && r.0[0] == Goto(baseUrl.value + LoginPath)
    ensures r.1 == LoggedIn ==> r.0 == Ceremony(baseUrl.value, user)
    ensures !BaseUrlMissing(baseUrl) ==>
              (r.1 == LoggedIn <==> forall a :: a in Ceremony(baseUrl.value, user) ==> a !in timesOut)
    ensures r.1.TimedOut? ==>
              && 0 < |r.0| <= |Ceremony(baseUrl.value, user)|
              && r.0 == Ceremony(baseUrl.value, user)[..|r.0|]
              && r.1.step == r.0[|r.0| - 1] && r.1.step in timesOut
              && forall k :: 0 <= k < |r.0| - 1 ==> r.0[k] !in timesOut
  {
    if BaseUrlMissing(baseUrl) then ([], MissingBaseUrl(MissingBaseUrlMessage))
    else
      var run := Attempt(Ceremony(baseUrl.value, user), timesOut);
      (run.attempted, if run.timedOut.Some? then TimedOut(run.timedOut.value) else LoggedIn)
  }

  /** The browser page the fixture drives, observed as the trace of actions attempted on it. */
  class Page {
    var trace: seq<Action>
    /** The actions this page never lets complete within their timeout. */
    const timesOut: set<Action>

    constructor (timesOut: set<Action>)
      ensures trace == [] && this.timesOut == timesOut
    {
      trace := [];
      this.timesOut := timesOut;
    }

    /** Awaits one action; `done` is false when it timed out. */
    method Perform(a: Action) returns (done: bool)
      modifies this
      ensures trace == old(trace) + [a]
      ensures done == (a !in timesOut)
    {
      trace := trace + [a];
      done := a !in timesOut;
    }
  }

  /** When an action of `p` times out, whatever follows `p` is never tried. */
  lemma {:induction false} AttemptStopsWithin(p: seq<Action>, rest: seq<Action>, timesOut: set<Action>)
    requires Attempt(p, timesOut).timedOut.Some?
    ensures Attempt(p + rest, timesOut) == Attempt(p, timesOut)
  {
    var q := p + rest;
    assert q[0] == p[0];
    if p[0] !in timesOut {
      assert q[1..] == p[1..] + rest;
      AttemptStopsWithin(p[1..], rest, timesOut);
    }
  }

  /** When all of `p` completes, what follows `p` is attempted after it. */
  lemma {:induction false} AttemptContinuesAfter(p: seq<Action>, rest: seq<Action>, timesOut: set<Action>)
    requires Attempt(p, timesOut).timedOut.None?
    ensures Attempt(p + rest, timesOut).attempted == p + Attempt(rest, timesOut).attempted
    ensures Attempt(p + rest, timesOut).timedOut == Attempt(rest, timesOut).timedOut
  {
    if p == [] {
      assert p + rest == rest;
    } else {
      var q := p + rest;
      assert q[0] == p[0] && p[0] !in timesOut;
      assert q[1..] == p[1..] + rest;
      var inner := Attempt(p[1..], timesOut);
      assert inner.timedOut.None?;
      AttemptContinuesAfter(p[1..], rest, timesOut);
      var tail := Attempt(rest, timesOut).attempted;
      assert Attempt(q, timesOut).attempted == [p[0]] + Attempt(q[1..], timesOut).attempted;
      assert [p[0]] + (p[1..] + tail) == p + tail;
    }
  }

  /**
   * Having gone from trace `t0` to trace `t` while working through `todo`,
   * what remains to be awaited is `rest`: finishing `rest` from `t` ends
   * where attempting all of `todo` from `t0` ends.
   */
  ghost predicate Resumes(t0: seq<Action>, t: seq<Action>, todo: seq<Action>, rest: seq<Action>, timesOut: set<Action>)
  {
    && t + Attempt(rest, timesOut).attempted == t0 + Attempt(todo, timesOut).attempted
    && Attempt(rest, timesOut).timedOut == Attempt(todo, timesOut).timedOut
  }

  /** A phase `p` of what remains completed: the rest remains. */
  lemma PhaseCompleted(t0: seq<Action>, t: seq<Action>, todo: seq<Action>, p: seq<Action>, rest: seq<Action>, timesOut: set<Action>)
    requires Resumes(t0, t, todo, p + rest, timesOut)
    requires Attempt(p, timesOut).timedOut.None?
    ensures Resumes(t0, t + p, todo, rest, timesOut)
  {
    AttemptContinuesAfter(p, rest, timesOut);
    var tail := Attempt(rest, timesOut).attempted;
    assert t + (p + tail) == (t + p) + tail;
  }

  /** A phase `p` of what remains timed out: the whole attempt stopped there. */
  lemma PhaseStopped(t0: seq<Action>, t: seq<Action>, todo: seq<Action>, p: seq<Action>, rest: seq<Action>, timesOut: set<Action>)
    requires Resumes(t0, t, todo, p + rest, timesOut)
    requires Attempt(p, timesOut).timedOut.Some?
    ensures t + Attempt(p, timesOut).attempted == t0 + Attempt(todo, timesOut).attempted
    ensures Attempt(p, timesOut).timedOut == Attempt(todo, timesOut).timedOut
  {
    AttemptStopsWithin(p, rest, timesOut);
  }

  /** Navigates to the login page and waits for the username field. */
  method OpenLoginPage(page: Page, loginUrl: string) returns (failed: Option<Action>)
    modifies page
    ensures page.trace == old(page.trace) + Attempt(OpeningPhase(loginUrl), page.timesOut).attempted
    ensures failed == Attempt(OpeningPhase(loginUrl), page.timesOut).timedOut
  {
    var done := page.Perform(Goto(loginUrl));
    if !done { return Some(Goto(loginUrl)); }
    done := page.Perform(WaitVisible(UsernameField));
    if !done { return Some(WaitVisible(UsernameField)); }
    failed := None;
  }

  /** Fills the username and clicks its Next link. */
  method EnterUsername(page: Page, username: string) returns (failed: Option<Action>)
    modifies page
    ensures page.trace == old(page.trace) + Attempt(UsernamePhase(username), page.timesOut).attempted
    ensures failed == Attempt(UsernamePhase(username), page.timesOut).timedOut
  {
    var done := page.Perform(Fill(UsernameField, username));
    if !done { return Some(Fill(UsernameField, username)); }
    done := page.Perform(Click(UsernameNext));
    if !done { return Some(Click(UsernameNext)); }
    failed := None;
  }

  /** Waits for the password field, fills it and clicks its Next link. */
  method EnterPassword(page: Page, password: string) returns (failed: Option<Action>)
    modifies page
    ensures page.trace == old(page.trace) + Attempt(PasswordPhase(password), page.timesOut).attempted
    ensures failed == Attempt(PasswordPhase(password), page.timesOut).timedOut
  {
    var done := page.Perform(WaitVisible(PasswordField));
    if !done { return Some(WaitVisible(PasswordField)); }
    done := page.Perform(Fill(PasswordField, password));
    if !done { return Some(Fill(PasswordField, password)); }
    done := page.Perform(Click(PasswordNext));
    if !done { return Some(Click(PasswordNext)); }
    failed := None;
  }

  /** Waits for the device list, picks "SMS Code" and clicks its Next link. */
  method ChooseSmsDevice(page: Page) returns (failed: Option<Action>)
    modifies page
    ensures page.trace == old(page.trace) + Attempt(MfaPhase, page.timesOut).attempted
    ensures failed == Attempt(MfaPhase, page.timesOut).timedOut
  {
    var done := page.Perform(WaitVisible(MfaDevice));
    if !done { return Some(WaitVisible(MfaDevice)); }
    done := page.Perform(SelectLabel(MfaDevice, MfaOption));
    if !done { return Some(SelectLabel(MfaDevice, MfaOption)); }
    done := page.Perform(Click(MfaNext));
    if !done { return Some(Click(MfaNext)); }
    failed := None;
  }

  /** Waits for the SMS code box, fills it and clicks Confirm. */
  method EnterSmsCode(page: Page, smsCode: string) returns (failed: Option<Action>)
    modifies page
    ensures page.trace == old(page.trace) + Attempt(SmsPhase(smsCode), page.timesOut).attempted
    ensures failed == Attempt(SmsPhase(smsCode), page.timesOut).timedOut
  {
    var done := page.Perform(WaitVisible(SmsField));
    if !done { return Some(WaitVisible(SmsField)); }
    done := page.Perform(Fill(SmsField, smsCode));
    if !done { return Some(Fill(SmsField, smsCode)); }
    done := page.Perform(Click(ConfirmLink));
    if !done { return Some(Click(ConfirmLink)); }
    failed := None;
  }

  /** Waits for a URL matching `/\/home/`. */
  method AwaitHome(page: Page) returns (failed: Option<Action>)
    modifies page
    ensures page.trace == old(page.trace) + Attempt(HomePhase, page.timesOut).attempted
    ensures failed == Attempt(HomePhase, page.timesOut).timedOut
  {
    var done := page.Perform(WaitForUrl(HomeFragment));
    if !done { return Some(WaitForUrl(HomeFragment)); }
    failed := None;
  }

  /** The `loginAs` fixture: fail fast without BASE_URL, then the ceremony phase by phase. */
  method LoginAs(page: Page, baseUrl: Option<string>, user: TestUser) returns (outcome: LoginOutcome)
    modifies page
    ensures page.trace == old(page.trace) + LoginRun(baseUrl, user, page.timesOut).0
    ensures outcome == LoginRun(baseUrl, user, page.timesOut).1
  {
    if baseUrl.None? || baseUrl.value == "" {
      return MissingBaseUrl(MissingBaseUrlMessage);
    }
    var loginUrl := baseUrl.value + LoginPath;
    ghost var timesOut := page.timesOut;
    ghost var todo := Ceremony(baseUrl.value, user);
    ghost var t0 := page.trace;
    ghost var afterSms := SmsPhase(user.smsCode) + HomePhase;
    ghost var afterMfa := MfaPhase + afterSms;
    ghost var afterPassword := PasswordPhase(user.password) + afterMfa;
    ghost var afterUsername := UsernamePhase(user.username) + afterPassword;
    assert Resumes(t0, t0, todo, OpeningPhase(loginUrl) + afterUsername, timesOut);

    ghost var t := page.trace;
    var failed := OpenLoginPage(page, loginUrl);
    if failed.Some? {
      PhaseStopped(t0, t, todo, OpeningPhase(loginUrl), afterUsername, timesOut);
      return TimedOut(failed.value);
    }
    PhaseCompleted(t0, t, todo, OpeningPhase(loginUrl), afterUsername, timesOut);

    t := page.trace;
    failed := EnterUsername(page, user.username);
    if failed.Some? {
      PhaseStopped(t0, t, todo, UsernamePhase(user.username), afterPassword, timesOut);
      return TimedOut(failed.value);
    }
    PhaseCompleted(t0, t, todo, UsernamePhase(user.username), afterPassword, timesOut);

    t := page.trace;
    failed := EnterPassword(page, user.password);
    if failed.Some? {
      PhaseStopped(t0, t, todo, PasswordPhase(user.password), afterMfa, timesOut);
      return TimedOut(failed.value);
    }
    PhaseCompleted(t0, t, todo, PasswordPhase(user.password), afterMfa, timesOut);

    t := page.trace;
    failed := ChooseSmsDevice(page);
    if failed.Some? {
      PhaseStopped(t0, t, todo, MfaPhase, afterSms, timesOut);
      return TimedOut(failed.value);
    }
    PhaseCompleted(t0, t, todo, MfaPhase, afterSms, timesOut);

    t := page.trace;
    failed := EnterSmsCode(page, user.smsCode);
    if failed.Some? {
      PhaseStopped(t0, t, todo, SmsPhase(user.smsCode), HomePhase, timesOut);
      return TimedOut(failed.value);
    }
    PhaseCompleted(t0, t, todo, SmsPhase(user.smsCode), HomePhase, timesOut);

    t := page.trace;
    failed := AwaitHome(page);
    assert HomePhase + [] == HomePhase;
    if failed.Some? {
      PhaseStopped(t0, t, todo, HomePhase, [], timesOut);
      return TimedOut(failed.value);
    }
    PhaseCompleted(t0, t, todo, HomePhase, [], timesOut);
    outcome := LoggedIn;
  }

  /**
   * The `login` fixture: `loginAs` applied to the `testUser` fixture, which is
   * resolved from the `userId` option first. When that resolution throws, the
   * test fails before any page action.
   */
  method Login(page: Page, baseUrl: Option<string>, users: seq<TestUser>, userId: string)
    returns (outcome: Result<LoginOutcome, string>)
    requires userId != "" || |users| > 0
    modifies page
    ensures SelectTestUser(users, userId).Err? ==>
              && outcome == Err(SelectTestUser(users, userId).error)
              && page.trace == old(page.trace)
    ensures SelectTestUser(users, userId).Ok? ==>
              && page.trace == old(page.trace) + LoginRun(baseUrl, SelectTestUser(users, userId).value, page.timesOut).0
              && outcome == Ok(LoginRun(baseUrl, SelectTestUser(users, userId).value, page.timesOut).1)
  {
    var testUser := SelectTestUser(users, userId);
    if testUser.Err? {
      return Err(testUser.error);
    }
    var result := LoginAs(page, baseUrl, testUser.value);
    outcome := Ok(result);
  }

  /**
   * On a page that completes every action, a login with BASE_URL set types the
   * user's three secrets in order and ends logged in; without BASE_URL nothing
   * is attempted at all.
   */
  lemma LoginOnResponsivePage(baseUrl: Option<string>, user: TestUser)
    ensures BaseUrlMissing(baseUrl) ==> LoginRun(baseUrl, user, {}).0 == []
    ensures !BaseUrlMissing(baseUrl) ==>
              && LoginRun(baseUrl, user, {}).1 == LoggedIn
              && FilledValues(LoginRun(baseUrl, user, {}).0) == [user.username, user.password, user.smsCode]
              && SelectedLabels(LoginRun(baseUrl, user, {}).0) == [MfaOption]
  {
    if !BaseUrlMissing(baseUrl) {
      CeremonyFillsSecretsInOrder(baseUrl.value, user);
      CeremonyAlwaysPicksSms(baseUrl.value, user);
    }
  }
}

=== FILE: text.dfy ===
/**
 * String operations the suite relies on: `toLowerCase`, `includes`, `join`
 * and the ASCII digit class `\d`. Strings are sequences of UTF-16 code units;
 * only the ASCII letters are case-mapped (see README, "Left out").
 */
module Text {

  /** ASCII lower-casing of one code unit. */
  function LowerChar(c: char): (r: char)
    ensures 'A' <= c <= 'Z' ==> r as int == c as int + 32
    ensures !('A' <= c <= 'Z') ==> r == c
  {
    if 'A' <= c <= 'Z' then (c as int + 32) as char else c
  }

  /** `s.toLowerCase()` restricted to ASCII letters. */
  function Lower(s: string): (r: string)
    ensures |r| == |s|
    ensures forall i :: 0 <= i < |s| ==> r[i] == LowerChar(s[i])
  {
    seq(|s|, i requires 0 <= i < |s| => LowerChar(s[i]))
  }

  /** `p` occurs in `s` starting at index `i`. */
  predicate OccursAt(s: string, p: string, i: int)
  {
    0 <= i && i + |p| <= |s| && s[i..i + |p|] == p
  }

  /** `s.includes(p)`. */
  predicate Contains(s: string, p: string)
  {
    exists i | 0 <= i <= |s| - |p| :: OccursAt(s, p, i)
  }

  /** An occurrence inside `b` is an occurrence inside `a + b + c`. */
  lemma ContainsInside(a: string, b: string, c: string, p: string)
    requires Contains(b, p)
    ensures Contains(a + b + c, p)
  {
    var i :| 0 <= i <= |b| - |p| && OccursAt(b, p, i);
    var s := a + b + c;
    assert s[|a| + i..|a| + i + |p|] == b[i..i + |p|];
    assert OccursAt(s, p, |a| + i);
  }

  lemma ContainsSelf(s: string)
    ensures Contains(s, s)
  {
    assert OccursAt(s, s, 0);
  }

  /** `xs.join(sep)`. */
  function Join(xs: seq<string>, sep: string): string
  {
    if |xs| == 0 then ""
    else if |xs| == 1 then xs[0]
    else xs[0] + sep + Join(xs[1..], sep)
  }

  /** Joining keeps every part, in order: a list grows at the end by `sep + y`. */
  lemma {:induction false} JoinSnoc(xs: seq<string>, y: string, sep: string)
    requires |xs| > 0
    ensures Join(xs + [y], sep) == Join(xs, sep) + sep + y
  {
    if |xs| == 1 {
      assert xs + [y] == [xs[0], y];
      assert (xs + [y])[1..] == [y];
    } else {
      assert (xs + [y])[1..] == xs[1..] + [y];
      JoinSnoc(xs[1..], y, sep);
    }
  }

  /** Every part of a joined list can be found in the joined string. */
  lemma {:induction false} JoinContainsPart(xs: seq<string>, sep: string, k: int)
    requires 0 <= k < |xs|
    ensures Contains(Join(xs, sep), xs[k])
  {
    if |xs| == 1 {
      ContainsSelf(xs[0]);
    } else if k == 0 {
      ContainsSelf(xs[0]);
      ContainsInside("", xs[0], sep + Join(xs[1..], sep), xs[0]);
      assert "" + xs[0] + (sep + Join(xs[1..], sep)) == Join(xs, sep);
    } else {
      JoinContainsPart(xs[1..], sep, k - 1);
      ContainsInside(xs[0] + sep, Join(xs[1..], sep), "", xs[k]);
      assert xs[0] + sep + Join(xs[1..], sep) + "" == Join(xs, sep);
    }
  }

  /** The ASCII digit class `\d` of a JavaScript regular expression. */
  predicate IsDigit(c: char)
  {
    '0' <= c <= '9'
  }

  /** Every code unit of `s[i..j]` is a digit. */
  predicate AllDigits(s: string, i: int, j: int)
    requires 0 <= i <= j <= |s|
  {
    forall k | i <= k < j :: IsDigit(s[k])
  }
}

=== FILE: users.dfy ===
/**
 * The test-user store of the suite: the records of users.local.json become an
 * ordered list of test users, looked up by id, with the first one as default.
 */
module Users {
  import opened Wrappers
  import opened Text

  datatype AccountType = Chequing | Savings | Credit | Loan | Utility

  datatype Account = Account(name: string, kind: AccountType, number: string, currency: string)

  /**
   * One value of the users.local.json object: a user without its id.
   * `strayId` is an `id` property the file may carry although the declared
   * type omits it; `None` when the file follows the declared type.
   */
  datatype UserData = UserData(
    strayId: Option<string>,
    name: string,
    username: string,
    password: string,
    smsCode: string,
    accounts: seq<Account>)

  datatype TestUser = TestUser(
    id: string,
    name: string,
    username: string,
    password: string,
    smsCode: string,
    accounts: seq<Account>)

  /** The parsed object as `Object.entries` yields it: (key, value) pairs in key order. */
  type Entries = seq<(string, UserData)>

  /** The keys of one object are pairwise distinct. */
  predicate DistinctKeys(entries: Entries)
  {
    forall i, j | 0 <= i < j < |entries| :: entries[i].0 != entries[j].0
  }

  /** The local data file as the loader finds it. */
  datatype LocalFile = Absent | Present(parsed: Option<Entries>)

  datatype LoadError = MissingFile(message: string) | InvalidJson

  const LocalFileName: string := "users.local.json"

  const MissingFileMessageTail: string :=
    ". Copy users.example.json to " + LocalFileName + " and fill in your credentials."

  const MissingFileMessage: string := "Missing " + LocalFileName + MissingFileMessageTail

  /** Reading users.local.json: a missing file is a configuration error, an unparsable one a JSON error. */
  function LoadTestData(file: LocalFile): (r: Result<Entries, LoadError>)
    ensures r.Err? <==> file.Absent? || file.parsed.None?
    ensures file.Absent? ==> r.Err? && r.error.MissingFile? && Contains(r.error.message, "users.local.json")
    ensures r.Ok? ==> file == Present(Some(r.value))
  {
    match file
    case Absent =>
      ContainsSelf(LocalFileName);
      ContainsInside("Missing ", LocalFileName, MissingFileMessageTail, LocalFileName);
      Err(MissingFile(MissingFileMessage))
    case Present(None) => Err(InvalidJson)
    case Present(Some(entries)) => Ok(entries)
  }

  /** The object literal `{ id, ...user }` AS WRITTEN: a stray `id` in the data overrides the key. */
  function SpreadAsWritten(key: string, data: UserData): TestUser
  {
    var id := match data.strayId case Some(stray) => stray case None => key;
    TestUser(id, data.name, data.username, data.password, data.smsCode, data.accounts)
  }

  /** The intended construction: the key is the id and every other field is copied. */
  function MakeUser(key: string, data: UserData): (u: TestUser)
    ensures u.id == key
    ensures u.name == data.name && u.username == data.username && u.password == data.password
    ensures u.smsCode == data.smsCode && u.accounts == data.accounts
  {
    TestUser(key, data.name, data.username, data.password, data.smsCode, data.accounts)
  }

  /** `testUsers` as the source builds it, with the spread as written. */
  function TestUsersAsWritten(entries: Entries): (users: seq<TestUser>)
    ensures |users| == |entries|
    ensures forall i :: 0 <= i < |entries| ==> users[i] == SpreadAsWritten(entries[i].0, entries[i].1)
  {
    seq(|entries|, i requires 0 <= i < |entries| => SpreadAsWritten(entries[i].0, entries[i].1))
  }

  /** `testUsers`, one user per entry, in entry order, id taken from the key. */
  function TestUsers(entries: Entries): (users: seq<TestUser>)
    ensures |users| == |entries|
    ensures forall i :: 0 <= i < |entries| ==> users[i] == MakeUser(entries[i].0, entries[i].1)
  {
    seq(|entries|, i requires 0 <= i < |entries| => MakeUser(entries[i].0, entries[i].1))
  }

  /** The module-level load: the store, or the error that aborts the run before any user exists. */
  function LoadUsers(file: LocalFile): (r: Result<seq<TestUser>, LoadError>)
    ensures file.Absent? ==> r == Err(MissingFile(MissingFileMessage))
    ensures r.Ok? <==> file.Present? && file.parsed.Some?
    ensures r.Ok? ==> |r.value| == |file.parsed.value|
    ensures r.Ok? ==> forall i :: 0 <= i < |r.value| ==> r.value[i].id == file.parsed.value[i].0
  {
    match LoadTestData(file)
    case Err(e) => Err(e)
    case Ok(entries) => Ok(TestUsers(entries))
  }

  function Ids(users: seq<TestUser>): (ids: seq<string>)
    ensures |ids| == |users|
    ensures forall i :: 0 <= i < |users| ==> ids[i] == users[i].id
  {
    seq(|users|, i requires 0 <= i < |users| => users[i].id)
  }

  /** `testUsers.find(u => u.id === id)`, as the index of the first match. */
  function FindIndex(users: seq<TestUser>, id: string): (r: Option<nat>)
    ensures r.Some? ==> r.value < |users| && users[r.value].id == id
    ensures r.Some? ==> forall j :: 0 <= j < r.value ==> users[j].id != id
    ensures r.None? ==> forall j :: 0 <= j < |users| ==> users[j].id != id
  {
    if |users| == 0 then None
    else if users[0].id == id then Some(0)
    else match FindIndex(users[1..], id)
      case None => None
      case Some(k) => Some(k + 1)
  }

  function NotFoundMessage(id: string, users: seq<TestUser>): string
  {
    "Test user \"" + id + "\" not found. Available: " + Join(Ids(users), ", ")
  }

  /** `getUser`: the first user with that id, or the error naming the id and every available id. */
  function GetUser(users: seq<TestUser>, id: string): (r: Result<TestUser, string>)
    ensures r.Ok? <==> exists j :: 0 <= j < |users| && users[j].id == id
    ensures r.Ok? ==> r.value.id == id
    ensures r.Ok? ==> exists j :: (0 <= j < |users| && users[j] == r.value
                                   && forall k :: 0 <= k < j ==> users[k].id != id)
    ensures r.Err? ==> r.error == NotFoundMessage(id, users)
  {
    match FindIndex(users, id)
    case Some(j) => Ok(users[j])
    case None => Err(NotFoundMessage(id, users))
  }

  /** The not-found message names the requested id and every id of the store. */
  lemma NotFoundMessageNamesIds(id: string, users: seq<TestUser>)
    ensures Contains(NotFoundMessage(id, users), id)
    ensures forall k :: 0 <= k < |users| ==> Contains(NotFoundMessage(id, users), users[k].id)
  {
    var head := "Test user \"";
    var tail := "\" not found. Available: " + Join(Ids(users), ", ");
    ContainsSelf(id);
    ContainsInside(head, id, tail, id);
    assert head + id + tail == NotFoundMessage(id, users);
    forall k | 0 <= k < |users|
      ensures Contains(NotFoundMessage(id, users), users[k].id)
    {
      JoinContainsPart(Ids(users), ", ", k);
      var front := "Test user \"" + id + "\" not found. Available: ";
      ContainsInside(front, Join(Ids(users), ", "), "", users[k].id);
      assert front + Join(Ids(users), ", ") + "" == NotFoundMessage(id, users);
    }
  }

  /** `getDefaultUser`: the first user of the store. */
  function DefaultUser(users: seq<TestUser>): (u: TestUser)
    requires |users| > 0
    ensures u in users
    ensures u == users[0]
  {
    users[0]
  }

  /** `getAccounts`: the accounts of `getUser(id)`, failing exactly when it fails. */
  function GetAccounts(users: seq<TestUser>, id: string): (r: Result<seq<Account>, string>)
    ensures r.Ok? <==> exists j :: 0 <= j < |users| && users[j].id == id
    ensures r.Ok? ==> exists j :: (0 <= j < |users| && users[j].id == id && r.value == users[j].accounts
                                   && forall k :: 0 <= k < j ==> users[k].id != id)
    ensures r.Err? ==> r.error == NotFoundMessage(id, users)
  {
    match GetUser(users, id)
    case Ok(u) => Ok(u.accounts)
    case Err(e) => Err(e)
  }

  /** Users built from one object's keys have pairwise distinct ids. */
  lemma LoadedIdsDistinct(entries: Entries)
    requires DistinctKeys(entries)
    ensures forall i, j :: 0 <= i < j < |entries| ==> TestUsers(entries)[i].id != TestUsers(entries)[j].id
  {
  }

  /** In a store with distinct ids, looking up the id of a user gives back that user. */
  lemma {:induction false} GetUserOfMember(users: seq<TestUser>, i: int)
    requires 0 <= i < |users|
    requires forall a, b :: 0 <= a < b < |users| ==> users[a].id != users[b].id
    ensures GetUser(users, users[i].id) == Ok(users[i])
  {
    var r := GetUser(users, users[i].id);
    var j :| 0 <= j < |users| && users[j] == r.value && forall k :: 0 <= k < j ==> users[k].id != users[i].id;
    assert j <= i;
    if j < i {
      assert users[j].id == users[i].id;
    }
  }

  /** Every key of the loaded file finds the user built from its own entry. */
  lemma LookupByKey(entries: Entries, i: int)
    requires DistinctKeys(entries)
    requires 0 <= i < |entries|
    ensures GetUser(TestUsers(entries), entries[i].0) == Ok(MakeUser(entries[i].0, entries[i].1))
  {
    LoadedIdsDistinct(entries);
    GetUserOfMember(TestUsers(entries), i);
  }

  /** The default user is the one built from the first key of the file, so reordering keys changes it. */
  lemma DefaultIsFirstKey(entries: Entries)
    requires |entries| > 0
    ensures DefaultUser(TestUsers(entries)) == MakeUser(entries[0].0, entries[0].1)
    ensures forall other: Entries :: |other| > 0 && other[0].0 != entries[0].0 ==>
      DefaultUser(TestUsers(other)) != DefaultUser(TestUsers(entries))
  {
  }

  /** As written, a stray `id` in the data breaks both "id equals key" and distinctness. */
  lemma SpreadOverridesKey()
    ensures var data := UserData(Some("b"), "", "", "", "", []);
      var entries := [("a", data), ("b", data)];
      && DistinctKeys(entries)
      && TestUsersAsWritten(entries)[0].id != entries[0].0
      && TestUsersAsWritten(entries)[0].id == TestUsersAsWritten(entries)[1].id
      && GetUser(TestUsersAsWritten(entries), "a").Err?
  {
    var data := UserData(Some("b"), "", "", "", "", []);
    var entries := [("a", data), ("b", data)];
    var users := TestUsersAsWritten(entries);
    assert users[0].id == "b" && users[1].id == "b";
    assert GetUser(users, "a").Err?;
  }

  /** Without a stray `id` the as-written construction is the intended one. */
  lemma SpreadAgreesWithoutStrayId(entries: Entries)
    requires forall i :: 0 <= i < |entries| ==> entries[i].1.strayId.None?
    ensures TestUsersAsWritten(entries) == TestUsers(entries)
  {
  }

  /** On data whose entries carry no `id` of their own, loading builds exactly the users the source builds. */
  lemma LoadUsersAgreesWithSource(file: LocalFile)
    requires file.Present? && file.parsed.Some?
    requires forall i :: 0 <= i < |file.parsed.value| ==> file.parsed.value[i].1.strayId.None?
    ensures LoadUsers(file) == Ok(TestUsersAsWritten(file.parsed.value))
  {
    SpreadAgreesWithoutStrayId(file.parsed.value);
  }
}

=== FILE: wrappers.dfy ===
/** Success/failure wrappers used where the source throws or returns an optional value. */
module Wrappers {

  datatype Option<+T> = None | Some(value: T)

  /** `Err` carries what the source would have thrown. */
  datatype Result<+R, +E> = Ok(value: R) | Err(error: E)
}
